=== FILE: README.md ===
# Quiz runner scoring model

A Dafny model of the scoring core of a console quiz runner. The model covers:

- how many attempts a question gets;
- how a response is read and graded, either by option number or as typed text;
- how partial-credit points are earned;
- how the session tally (`Results`) is folded over the questions;
- how the adjusted percentage is computed;
- how a session's score is merged into the per-user score history, ranked, printed and saved;
- the clamping of configuration counts;
- the validation the two score-file loaders apply.

Console input is an explicit `seq<string>` of lines. Every reader returns
`Got(value, rest)` or `Exhausted`. `Exhausted` means the lines ran out, where
the program would stop with an end-of-file error. Each `random.shuffle` is a
parameter: the caller passes the already-shuffled list and must show that it
is a permutation (`multiset` equality) of the original.

Modules follow the source files:

- `Console` (console.dfy): the read outcome, and `ReadUntil`. `ReadUntil` is the
  "read a line, re-prompt until it is acceptable" loop. Index selection, the
  yes/no question and the user-name prompt all use it.
- `Text` (text.dfy): ASCII versions of `int()`, `lower()`, `upper()`,
  `split()` and `join()`. It proves that split and join are inverses.
- `QuizQuestion`, `QuizConfig`, `QuizResults`: question.py, config.py and results.py.
- `Quiz` (quiz.dfy): quiz.py.
- `ScoreHistory` (scores.py). A user's score dictionary is a list of entries
  in insertion order. The stable ranking of equal scores depends on that order.
- `ScoreFile`: the validation loop that both score loaders share.
- `LoadFiles`, `FileHandling`: load_files.py and file_handling.py.
- `MainScript`: `get_user_name` from main.py.
- `Scenarios`: worked examples on concrete values.

main.py repeats `do_quiz`, `do_question`, `get_answer`,
`select_answer_using_index` and `type_answer` (main.py:32-197) line for line.
It also repeats the merge, `yes_or_no`, `save_score`, `print_scores` and
`sort_dict` (main.py:201-344). Those copies behave the same, with two
differences:

- they read the user name and the settings from module-level variables
  instead of parameters;
- they load scores through the split-based checker of load_files.py.

Each copy is therefore modelled once, by the members cited below.
`ScoreHistory.SaveAndViewScores` takes the outcome of either loader as its
input, converted by `ScoreFile.AsLoaded`.

The empty-list check on questions in file_handling.py:98-99 is the same as the
one in load_files.py:164-165. `LoadFiles.LoadQuestionsFile` models both.

Where a comment or docstring in the program and the code beside it say
different things, the model follows the code:

- The comment at file_handling.py:201 says the number of questions is kept
  within the number of questions available. The next line assigns to
  `set_number_of_questions`, which is a new attribute and not the
  configured count, so nothing is clamped. `Quiz.DoQuiz` therefore requires
  `numberOfQuestions <= |questions|`. Without that, the program fails with
  an index error.
- The docstring at results.py:52-53 calls the adjusted score a percentage.
  Line 55 computes `int(100 * (score / max_score))` in floating point. See
  "Left out".
- The comment at config.py:25 ensures at least one attempt per question.
  quiz.py:56 then replaces the count by `min(attempts, |options| - 1)`,
  which is 0 or negative for a multiple-choice question with fewer than two
  options. `Quiz.DoQuiz` therefore reports `ZeroDivision` when the maximum
  score comes out as 0. `Quiz.DoQuizWellFormed` proves this cannot happen
  when every question has at least two options.

## Model

| member | source | states |
|---|---|---|
| QuizConfig.NewConfig | config.py:24-33 | both counts are stored as max(1, n): a count below 1 becomes 1 and a count of 1 or more is kept; the two flags and four paths are stored exactly as given |
| QuizConfig.NewConfigRoundTrip | config.py:53-76 | building a configuration from the values its getters return reproduces it, so the clamp is idempotent and every other field round-trips |
| QuizResults.NewResults | results.py:20-23 | a fresh tally has maximum score, score and correct count all zero |
| QuizResults.IncreaseMaxScoreBy | results.py:40-42 | adds n to the maximum score and leaves score and correct count unchanged |
| QuizResults.IncreaseScoreBy | results.py:44-45 | adds n to the score and leaves the other two counters unchanged |
| QuizResults.IncrementQuestionsCorrect | results.py:47-48 | adds exactly one to the correct count and leaves the other two unchanged |
| QuizResults.AdjustedScore | results.py:50-55 | defined only when the maximum score is non-zero; when 0 <= score <= maximum, the result is in 0..100 and is the floor of 100·score/maximum |
| QuizResults.AdjustedScoreEndpoints | results.py:55 | full marks give 100 and a score of zero gives 0 |
| QuizResults.AdjustedScoreMonotonic | results.py:55 | with the same maximum, a higher score never gives a lower percentage |
| Quiz.EffectiveAttempts | quiz.py:51-56 | in multiple-choice mode the cap is the smaller of the configured attempts and the number of wrong options (options minus one); otherwise it is the configured attempts |
| Quiz.EffectiveAttemptsPositive | quiz.py:51-56 | with clamped settings and at least two options, every question allows between 1 and the configured number of attempts |
| Quiz.SelectAnswerUsingIndex | quiz.py:150-158 | the first line that parses as an integer in 1..option count decides; every earlier line is skipped; the input runs out only if no line is valid; the response is correct iff the option at that index equals the answer exactly, with case mattering |
| Quiz.TypeAnswer | quiz.py:172-173 | reads exactly one line; the response is correct iff the lower-cased line equals the lower-cased answer |
| Quiz.TypedAnswerIgnoresCase | quiz.py:173 | any typed line equal to the answer up to letter case (for example PARIS for Paris) is graded correct |
| Quiz.GetAnswer | quiz.py:119-136 | a correct answer earns between 1 and the cap; a question never answered correctly earns nothing; a cap of zero or less reads no input and reports incorrect |
| Quiz.GetAnswerFirstCorrect | quiz.py:119-136 | if the first correct response is the k-th (k within the cap), get_answer returns (cap - (k - 1), correct) after reading exactly k responses |
| Quiz.GetAnswerNeverCorrect | quiz.py:123-134 | if none of the first cap responses is correct, get_answer reads exactly that many responses, never more, and returns (0, incorrect) |
| Quiz.InvalidIndexUsesNoAttempt | quiz.py:150-156 | in index mode a non-numeric or out-of-range line is re-prompted and changes neither the attempts used nor the points earned |
| Quiz.DoQuestion | quiz.py:51-66 | the maximum score grows by the question's cap whether or not the answer is right; either score and correct count are unchanged, or the correct count grows by one and the score by 1..cap; shuffling the options does not change the cap |
| Quiz.DoQuestionFollowsAnswer | quiz.py:61-66 | the correct count grows iff get_answer reports a correct answer, and the score then grows by exactly the points it reports |
| Quiz.AskQuestions | quiz.py:26-28 | after folding do_question over the asked questions, the maximum has grown by the sum of their caps, the correct count by at most the number of questions, and, when every cap is at least 0, the score by at most the sum of the caps |
| Quiz.DoQuiz | quiz.py:24-32 | asks the first question-count questions of the shuffled list. A finished quiz's maximum is the sum of their caps and is non-zero, its correct count is between 0 and the question count, and its score is at least 0. When score <= maximum, the final score is in 0..100 and is the floor of 100·score/maximum. The quiz ends for lack of input exactly when the question loop runs out of lines; otherwise it divides by zero exactly when the sum of caps is 0 |
| Quiz.GetAnswerTypedCompletes | quiz.py:123-134 | with typed answers and a cap of 0 or more, get_answer returns whenever at least cap lines are available, and reads at most cap of them |
| Quiz.AskQuestionsTypedCompletes | quiz.py:26-28 | with typed answers and caps of 0 or more, the question loop finishes whenever the input holds at least the sum of the caps in lines, and reads at most that many |
| Quiz.DoQuizTypedFinishes | quiz.py:24-32 | a well-formed quiz answered by typing ends with a score, not a division by zero or lack of input, whenever the input holds at least the sum of the caps in lines |
| Quiz.DoQuizWellFormed | quiz.py:24-32 | with clamped settings and at least two options per question in multiple-choice mode, no division by zero occurs, 0 <= score <= maximum, the maximum is at least the question count, and the final score is in 0..100 |
| ScoreHistory.SetScore | scores.py:36 | dictionary assignment: afterwards the timestamp maps to the new score and every other timestamp keeps its score; an existing key keeps its position and a new key is appended |
| ScoreHistory.SetScoreKeepsTimestampsDistinct | scores.py:36 | assignment keeps the timestamps of a user's dictionary distinct |
| ScoreHistory.Merge | scores.py:35-38 | the table gains at most the user; every other user is unchanged; the user's timestamp maps to the score; the user's other timestamps are unchanged; a new user gets the single-entry dictionary {ts: score}; an overwritten timestamp keeps its position, so the user's timestamps stay in the same order; a table without repeated timestamps per user keeps that property |
| ScoreHistory.MergeNewTimestamp | scores.py:35-36 | saving for an existing user under a new timestamp keeps every earlier entry in place and adds exactly one |
| ScoreHistory.SortDict | scores.py:148-155 | the output is a permutation of the input's entries, its scores are non-increasing, and for every score value the entries with that score appear in their input order (stable sort) |
| ScoreHistory.SortDictOfSorted | scores.py:152 | sorting entries already in non-increasing score order leaves them unchanged |
| ScoreHistory.YesOrNo | scores.py:61-74 | the first line whose upper-case form is "Y" or "N" decides: "Y" gives true and "N" gives false; every earlier line is skipped; the input runs out only if no line qualifies |
| ScoreHistory.SaveScore | scores.py:93-98 | an intact file is written without asking; for a corrupted file the table is written iff the user answers yes to overwriting, and nothing is written otherwise |
| ScoreHistory.PrintScores | scores.py:114-119 | an unknown user gets no rows; otherwise there is one row per saved entry, in non-increasing score order with equal scores in the order they were saved (row i comes from entry i of the stable sort), each row the entry's score with the timestamp's last three characters dropped, and every entry appears |
| ScoreHistory.SaveQuestions | scores.py:40-42 | returns iff the save question gets an answer and, after a yes for a corrupted file, the overwrite question does too; the merged table is to be written iff the first answer is yes and the file was intact or the overwrite answer is yes |
| ScoreFile.AsLoaded | scores.py:27-32 | a loader's value error is exactly the corrupted-file case, and loaded contents are passed on unchanged |
| ScoreHistory.SaveAndViewScores | scores.py:27-46 | the save stage returns iff the save question, and the overwrite question when it is asked (a yes for a corrupted file), get an answer; the table is written iff the user answers yes to saving and, for a corrupted file, yes to overwriting, and that write stands even when the input then ends at the view question; what is written is the loaded table (an empty one if the file was corrupted) merged with this session's score; the view question reads the lines left after that, and the table is shown iff its answer is yes; what is shown is the merged table's printout, which contains this session's row |
| ScoreHistory.IntactFileSavedAndShown | scores.py:40-46 | with an intact score file, a yes to saving and a yes to viewing write the merged table, show its printout, and read exactly those two lines |
| ScoreHistory.SavedBeforeInputEnds | scores.py:40-44 | with an intact score file, a yes to saving writes the merged table even when the input ends before the view question is answered |
| ScoreHistory.DeclineOverwriteWritesNothing | scores.py:93-97 | if the file was corrupted and the user says yes to saving and then no to overwriting, nothing is written, whatever the input holds after those two lines |
| LoadFiles.Format | load_files.py:31-43 | as written: KeyMissingError iff the object has fewer keys than the template; KeyError iff it has enough keys but lacks a template key; otherwise the result has exactly the template's keys with the object's values, and extra keys are dropped |
| LoadFiles.FormatMisnamedKey | load_files.py:35-41 | a one-key object whose key is not the template's key raises KeyError, not KeyMissingError |
| LoadFiles.FormatChecked | load_files.py:11-43 | as documented: KeyMissingError iff some template key is absent, never KeyError; otherwise exactly the template's keys with the object's values |
| LoadFiles.FormatCheckedAgrees | load_files.py:35-43 | whenever the written check does not raise KeyError, the corrected check gives the same outcome |
| LoadFiles.ClampConfigFile | load_files.py:133-134 | after parsing, both counts are at least one; a count already at least one is kept and a count below one becomes exactly one; every other setting is unchanged |
| LoadFiles.ClampConfigFileAgreesWithConfig | load_files.py:133-134 | clamping the file's settings and then building a Config gives the same Config as building it from the raw settings |
| LoadFiles.LoadQuestionsFile | load_files.py:164-165 | an empty question list is an incomplete file; any other list is returned unchanged |
| LoadFiles.CheckTimestampSound | load_files.py:200-205 | every accepted timestamp is three integer fields joined by '-', one space, and three integer fields joined by ':' |
| LoadFiles.CheckTimestampComplete | load_files.py:200-205 | every string built that way, with no field containing its own separator, is accepted |
| LoadFiles.LoadScoreFile | load_files.py:198-209 | the contents come back unchanged iff every timestamp passes the split check and every score is in 0..100; otherwise a value error |
| FileHandling.MatchPrefix | file_handling.py:161 | a fixed-width pattern matches iff the string is at least as long and its first characters match the pattern position by position |
| FileHandling.MatchIgnoresTrailing | file_handling.py:156-161 | the timestamp match is a prefix match: appending characters to an accepted timestamp keeps it accepted |
| FileHandling.MatchDependsOnFirst19 | file_handling.py:156-161 | only the first 19 characters decide whether a timestamp matches |
| FileHandling.LoadScoreFile | file_handling.py:159-166 | the contents come back unchanged iff every timestamp begins with DDDD-DD-DD, whitespace, DD:DD:DD and every score is in 0..100, with 0 and 100 included; otherwise a value error |
| FileHandling.ExactTimestampPassesBothChecks | file_handling.py:156-162 | a 19-character timestamp that matches the pattern and has a plain space between date and time also passes the split-based check of the other loader |
| MainScript.GetUserName | main.py:23-28 | returns the first line without a double-quote character; every earlier line contains one and is re-prompted |
| Scenarios.ThreeWrongOptionsCapAttempts | quiz.py:56 | three wrong options and five configured attempts give three attempts |
| Scenarios.TypedCapitalsMatch | quiz.py:173 | typing PARIS for the answer Paris is correct |
| Scenarios.FirstQuestionRightAtOnce | quiz.py:119-136 | with a cap of two, option 1 chosen first and correct earns both points: the tally goes from 0/0 to 2 of 2 with one question correct, and exactly one line is read |
| Scenarios.SecondQuestionWrongTwice | quiz.py:119-136 | with a cap of two, two wrong option numbers use up both attempts: the maximum grows by 2, the score and correct count stay unchanged, and both lines are read |
| Scenarios.TwoQuestionSession | quiz.py:24-32 | with two questions, two attempts and index mode: right at once, then wrong twice, gives score 2 of 4, one correct, 50 percent |
| Scenarios.RankingKeepsTiesInOrder | scores.py:152 | scores 50, 90, 90 rank as 90, 90, 50, with the two 90s in the order they were saved |

## Left out

- File and JSON input/output is not modelled. This covers `parse_json_file`, `load_file`, `save_score_file`, `load_data_class`, `open`/`close`, `json.load`/`json.dump`, and which exception escapes when a file is missing. Each loader starts from the already decoded value. (In file_handling.py the `open` call sits outside the `try`, so its "missing file gives an empty table" branch is never reached.)
- The value conversion in `format` (`value(json_object[key])`) is not modelled. It relies on Python constructor semantics. Only the key count and key selection are modelled.
- The class-based `load_config_file` (file_handling.py:59-70) is not modelled. It builds `Config` positionally from the decoded values. Only the constructor's clamping is modelled, in `QuizConfig.NewConfig`.
- QuizResults.AdjustedScore: computes the exact-arithmetic truncation of 100·score/maximum. The source divides in binary floating point first, so it can be one lower than the exact value: 29 of 100 gives 28.
- The shuffles are not random. Each shuffled list is a parameter constrained only to be a permutation.
- Text.ParseInt: accepts only an optional sign followed by ASCII digits. Python's `int()` also accepts surrounding whitespace, underscores and non-ASCII digits.
- Text.Lower: changes only the ASCII letters A-Z to lower case; Python's `str.lower()` works on all of Unicode. `Text.Upper` has the same ASCII-only limitation for `str.upper()`.
- FileHandling.MatchPrefix: `\d` is the ASCII digits and `\s` is the set Python's `re.ASCII` flag gives (space, tab, newline, carriage return, vertical tab, form feed). Without that flag, which the program does not pass, Python's `\d` also matches every Unicode decimal digit (for example the Arabic-Indic digit three), and its `\s` also matches the characters 0x1C-0x1F and non-ASCII spaces.
- The timestamp of a session is an input string. How `datetime.now()` is formatted into it is not modelled.
- Printing is not modelled. This covers the display and prompt text classes, `print_answer_options`, the "attempts remaining" and score messages, and the `__str__` methods. Terminating the process through `abend`/`exit` is not modelled either.
- Exception dispatch is not modelled. At load_files.py:168 the clause `except KeyMissingError or ValueError` catches only `KeyMissingError`.
- `load_essential_files` is not modelled. Its question-count clamp (file_handling.py:202) has no effect and becomes a precondition of `Quiz.DoQuiz`. main.py:350 calls a loader that load_files.py does not define.
- Quiz.DoQuizTypedFinishes: completion is proved for typed answers only. When answers are chosen by option number, invalid lines are re-prompted without using an attempt, so no line count bounds the input a question needs.
- ScoreHistory.SaveAndViewScores: requires the loaded table to have no repeated timestamp for a user, as a JSON object read by `json.load` cannot; `ScoreHistory.PrintScores` requires the same of its table.
- Quiz.DoQuiz: requires every shown option list to be a permutation of its question's options, in both modes. In typed mode the program never shuffles, and the list is then unused.

## Findings

| source | as written | input that shows it | evidently intended | confidence | as-written member | corrected member |
|---|---|---|---|---|---|---|
| load_files.py:35-41 | `format` compares only the number of keys with the template, then indexes every template key | the object {"b": 0} with a template whose only key is "a" raises KeyError from `format` itself, where the docstring promises KeyMissingError. Through the loaders this cannot happen as the code is written: `load_config_file` and `load_questions_file` build their templates from `S_MULTIPLE_CHOICE`, `Q_QUESTION` and similar names that neither load_files.py nor error_handling.py defines (load_files.py:112-119, 154-158), so they raise NameError before `format` runs | raise KeyMissingError whenever a template key is absent, as the docstring at load_files.py:21-23 says | high; not executed | LoadFiles.FormatMisnamedKey | LoadFiles.FormatChecked |

=== FILE: config.dfy ===
/** The quiz settings and the clamping applied when they are built. */
module QuizConfig {

  datatype Config = Config(
    numberOfQuestions: int,
    numberOfAttempts: int,
    multipleChoice: bool,
    selectUsingIndex: bool,
    questionFilePath: string,
    scoreFilePath: string,
    displayTextFilePath: string,
    promptFilePath: string)

  /** `max(1, n)`: a count that is at least one. */
  function AtLeastOne(n: int): (r: int)
    ensures r >= 1
    ensures n >= 1 ==> r == n
    ensures n < 1 ==> r == 1
  {
    if n < 1 then 1 else n
  }

  /** A configuration the constructor can produce: both counts at least one. */
  predicate Clamped(c: Config) {
    c.numberOfQuestions >= 1 && c.numberOfAttempts >= 1
  }

  /** The `Config` constructor: the question and attempt counts are raised to
      at least one, everything else is stored as given (and is what the
      corresponding getter returns). */
  function NewConfig(
    numberOfQuestions: int,
    numberOfAttempts: int,
    multipleChoice: bool,
    selectUsingIndex: bool,
    questionFilePath: string,
    scoreFilePath: string,
    displayTextFilePath: string,
    promptFilePath: string): (c: Config)
    ensures Clamped(c)
    ensures numberOfQuestions >= 1 ==> c.numberOfQuestions == numberOfQuestions
    ensures numberOfQuestions < 1 ==> c.numberOfQuestions == 1
    ensures numberOfAttempts >= 1 ==> c.numberOfAttempts == numberOfAttempts
    ensures numberOfAttempts < 1 ==> c.numberOfAttempts == 1
    ensures c.multipleChoice == multipleChoice && c.selectUsingIndex == selectUsingIndex
    ensures c.questionFilePath == questionFilePath && c.scoreFilePath == scoreFilePath
    ensures c.displayTextFilePath == displayTextFilePath && c.promptFilePath == promptFilePath
  {
    Config(AtLeastOne(numberOfQuestions), AtLeastOne(numberOfAttempts), multipleChoice, selectUsingIndex,
           questionFilePath, scoreFilePath, displayTextFilePath, promptFilePath)
  }

  /** Rebuilding a configuration from its own getters changes nothing: the
      clamp is idempotent and every other field round-trips. */
  lemma NewConfigRoundTrip(c: Config)
    requires Clamped(c)
    ensures NewConfig(c.numberOfQuestions, c.numberOfAttempts, c.multipleChoice, c.selectUsingIndex,
                      c.questionFilePath, c.scoreFilePath, c.displayTextFilePath, c.promptFilePath) == c
  {
  }
}

=== FILE: console.dfy ===
/**
 The console boundary of the quiz. Every `input()` call of the program is
 modelled as taking the next line of an explicit sequence of lines; a reader
 returns the value it produced together with the lines it did not consume, or
 `Exhausted` when the lines run out before it is satisfied (where the program
 would stop with an end-of-file error).
 */
module Console {

  datatype Option<T> = None | Some(value: T)

  /** The outcome of reading from the console: a value and the unread lines. */
  datatype Read<T> = Got(value: T, rest: seq<string>) | Exhausted

  /** Reads lines until one satisfies `accept`, discarding (re-prompting on)
      every line before it. This is the shape of each validating input loop of
      the program: index selection, the yes/no question and the user name. */
  function ReadUntil(input: seq<string>, accept: string -> bool): (r: Read<string>)
    ensures r.Exhausted? <==> forall i :: 0 <= i < |input| ==> !accept(input[i])
    ensures r.Got? ==>
              var k := |input| - |r.rest| - 1;
              && 0 <= k < |input|
              && r.rest == input[k + 1..]
              && r.value == input[k]
              && accept(input[k])
              && forall i :: 0 <= i < k ==> !accept(input[i])
    decreases |input|
  {
    if |input| == 0 then Exhausted
    else if accept(input[0]) then Got(input[0], input[1..])
    else ReadUntil(input[1..], accept)
  }

  /** A line the reader does not accept is skipped. */
  lemma ReadUntilSkips(input: seq<string>, accept: string -> bool)
    requires |input| > 0 && !accept(input[0])
    ensures ReadUntil(input, accept) == ReadUntil(input[1..], accept)
  {
  }
}

=== FILE: file_handling.dfy ===
/**
 The score-file check of the class-based loader: a timestamp is accepted when
 it BEGINS with `\d{4}-\d{2}-\d{2}\s\d{2}:\d{2}:\d{2}` (`re.match`, not
 `re.fullmatch`), and every score must lie in 0..100. `\d` is an ASCII digit
 and `\s` a whitespace character of Python's `re.ASCII` set here; without that
 flag Python also accepts every Unicode decimal digit and more spaces.
 */
module FileHandling {
  import opened Text
  import opened ScoreHistory
  import opened ScoreFile
  import LoadFiles

  /** One position of the timestamp pattern. */
  datatype CharClass = AnyDigit | AnySpace | Exactly(c: char)

  /** `\s` as Python's `re.ASCII` flag defines it: space, tab, newline,
      carriage return, vertical tab and form feed. */
  predicate IsSpace(c: char) {
    c == ' ' || c == '\t' || c == '\n' || c == '\r' || c as int == 11 || c as int == 12
  }

  predicate ClassMatches(k: CharClass, c: char) {
    match k
    case AnyDigit => IsDigit(c)
    case AnySpace => IsSpace(c)
    case Exactly(x) => c == x
  }

  /** `k{n}` */
  function Repeat(k: CharClass, n: nat): seq<CharClass> {
    seq(n, _ => k)
  }

  /** `\d{4}-\d{2}-\d{2}\s\d{2}:\d{2}:\d{2}` */
  const TimestampPattern: seq<CharClass> :=
    Repeat(AnyDigit, 4) + [Exactly('-')] + Repeat(AnyDigit, 2) + [Exactly('-')] + Repeat(AnyDigit, 2)
    + [AnySpace]
    + Repeat(AnyDigit, 2) + [Exactly(':')] + Repeat(AnyDigit, 2) + [Exactly(':')] + Repeat(AnyDigit, 2)

  /** `re.match` of a fixed-width pattern: the first |pattern| characters of
      `s` match it position by position; anything after them is ignored. */
  function MatchPrefix(pattern: seq<CharClass>, s: string): (ok: bool)
    ensures ok <==> |pattern| <= |s| && forall i :: 0 <= i < |pattern| ==> ClassMatches(pattern[i], s[i])
    decreases |pattern|
  {
    if |pattern| == 0 then true
    else |s| > 0 && ClassMatches(pattern[0], s[0]) && MatchPrefix(pattern[1..], s[1..])
  }

  function MatchesTimestamp(ts: string): bool {
    MatchPrefix(TimestampPattern, ts)
  }

  /** The match is a prefix match: characters after the seconds never make
      an accepted timestamp rejected. */
  lemma MatchIgnoresTrailing(ts: string, extra: string)
    requires MatchesTimestamp(ts)
    ensures MatchesTimestamp(ts + extra)
  {
    assert forall i :: 0 <= i < |ts| ==> (ts + extra)[i] == ts[i];
  }

  /** Only the first 19 characters decide. */
  lemma MatchDependsOnFirst19(ts: string)
    requires |ts| >= 19
    ensures MatchesTimestamp(ts) <==> MatchesTimestamp(ts[..19])
  {
    assert |TimestampPattern| == 19;
  }

  /** `load_score_file` after decoding: the contents come back unchanged
      exactly when every timestamp begins with the pattern and every score
      lies in 0..100, scores 0 and 100 included; otherwise a value error. */
  function LoadScoreFile(contents: ScoreTable): (r: ScoreLoad)
    ensures r.ScoresLoaded? <==>
              forall u, i :: u in contents && 0 <= i < |contents[u]| ==>
                MatchesTimestamp(contents[u][i].timestamp) && 0 <= contents[u][i].score <= 100
    ensures r.ScoresLoaded? ==> r.contents == contents
  {
    ValidateScores(contents, MatchesTimestamp)
  }

  /** A timestamp of exactly the pattern's length, with a plain space between
      date and time, passes the other loader's split-based check as well. */
  lemma ExactTimestampPassesBothChecks(ts: string)
    requires |ts| == 19 && ts[10] == ' '
    requires MatchesTimestamp(ts)
    ensures LoadFiles.CheckTimestamp(ts)
  {
    assert forall i :: 0 <= i < 19 ==> ClassMatches(TimestampPattern[i], ts[i]);
    var date := [ts[..4], ts[5..7], ts[8..10]];
    var time := [ts[11..13], ts[14..16], ts[17..]];
    forall i | 0 <= i < 3
      ensures IsDigits(date[i]) && IsDigits(time[i])
    {
      assert forall j :: 0 <= j < 4 ==> TimestampPattern[j] == AnyDigit;
      assert forall j :: 5 <= j < 7 || 8 <= j < 10 || 11 <= j < 13 || 14 <= j < 16 || 17 <= j < 19 ==>
        TimestampPattern[j] == AnyDigit;
    }
    assert TimestampPattern[4] == Exactly('-') && TimestampPattern[7] == Exactly('-');
    assert TimestampPattern[13] == Exactly(':') && TimestampPattern[16] == Exactly(':');
    forall i | 0 <= i < 3
      ensures '-' !in date[i] && ':' !in time[i]
    {
      assert forall j :: 0 <= j < |date[i]| ==> date[i][j] != '-';
      assert forall j :: 0 <= j < |time[i]| ==> time[i][j] != ':';
    }
    assert LoadFiles.TimestampFields(date, time);
    assert ts[4] == '-' && ts[7] == '-' && ts[13] == ':' && ts[16] == ':' by {
      assert ClassMatches(TimestampPattern[4], ts[4]) && ClassMatches(TimestampPattern[7], ts[7]);
      assert ClassMatches(TimestampPattern[13], ts[13]) && ClassMatches(TimestampPattern[16], ts[16]);
    }
    JoinThree(ts[..4], ts[5..7], ts[8..10], '-');
    JoinThree(ts[11..13], ts[14..16], ts[17..], ':');
    TimestampPieces(ts);
    LoadFiles.CheckTimestampComplete(date, time);
  }

  /** A 19-character string is its date, time and separator characters put
      back together. */
  lemma TimestampPieces(ts: string)
    requires |ts| == 19
    ensures ts == ts[..4] + [ts[4]] + ts[5..7] + [ts[7]] + ts[8..10] + [ts[10]]
                + (ts[11..13] + [ts[13]] + ts[14..16] + [ts[16]] + ts[17..])
  {
    var r := ts[..4] + [ts[4]] + ts[5..7] + [ts[7]] + ts[8..10] + [ts[10]]
             + (ts[11..13] + [ts[13]] + ts[14..16] + [ts[16]] + ts[17..]);
    assert |r| == 19;
    forall i | 0 <= i < 19
      ensures r[i] == ts[i]
    {
    }
  }
}

=== FILE: load_files.dfy ===
/**
 The file-loading helpers of the final loader: the key check of `format`,
 the clamp applied to a parsed configuration, the empty-file check on
 questions, and the timestamp and score validation of the score file. Opening,
 reading and JSON decoding are not modelled; each function starts from the
 decoded value.
 */
module LoadFiles {
  import opened Text
  import opened QuizQuestion
  import opened QuizConfig
  import opened ScoreHistory
  import opened ScoreFile

  /** The outcomes of `format`: the selected keys, `KeyMissingError`, or the
      `KeyError` that indexing a missing key raises. */
  datatype FormatResult<V> = Formatted(value: map<string, V>) | KeyMissingError | KeyError

  /** `format` as written: it compares only the NUMBER of keys with the
      template, then looks every template key up. An object with enough keys
      but a misnamed one therefore raises `KeyError`, not `KeyMissingError`.
      Converting each value to the template's type is not modelled. */
  function Format<V>(obj: map<string, V>, template: set<string>): (r: FormatResult<V>)
    ensures r.KeyMissingError? <==> |obj| < |template|
    ensures r.KeyError? <==> |obj| >= |template| && !(template <= obj.Keys)
    ensures r.Formatted? ==> r.value.Keys == template && forall k :: k in template ==> r.value[k] == obj[k]
  {
    if |obj| < |template| then KeyMissingError
    else if template <= obj.Keys then Formatted(map k | k in template :: obj[k])
    else KeyError
  }

  /** A one-key object whose key is not the template's escapes as `KeyError`
      although the documented contract promises `KeyMissingError`. */
  lemma FormatMisnamedKey()
    ensures Format(map["b" := 0], {"a"}) == KeyError
  {
    assert "a" !in map["b" := 0].Keys;
  }

  /** `format` as documented: `KeyMissingError` exactly when some template
      key is absent; extra keys of the object are dropped. */
  function FormatChecked<V>(obj: map<string, V>, template: set<string>): (r: FormatResult<V>)
    ensures r.KeyMissingError? <==> !(template <= obj.Keys)
    ensures !r.KeyError?
    ensures r.Formatted? ==> r.value.Keys == template && forall k :: k in template ==> r.value[k] == obj[k]
  {
    if template <= obj.Keys then Formatted(map k | k in template :: obj[k]) else KeyMissingError
  }

  /** The corrected check agrees with the written one wherever the written
      one does not raise `KeyError`. */
  lemma FormatCheckedAgrees<V>(obj: map<string, V>, template: set<string>)
    ensures !Format(obj, template).KeyError? ==> FormatChecked(obj, template) == Format(obj, template)
  {
    if template <= obj.Keys {
      SubsetCardinality(template, obj.Keys);
    }
  }

  lemma {:induction false} SubsetCardinality<T>(a: set<T>, b: set<T>)
    requires a <= b
    ensures |a| <= |b|
    decreases |a|
  {
    if a != {} {
      var x :| x in a;
      SubsetCardinality(a - {x}, b - {x});
    }
  }

  /** The settings read from the configuration file, in the file's order. */
  datatype ConfigFile = ConfigFile(
    multipleChoice: bool,
    numberOfQuestions: int,
    numberOfAttempts: int,
    multipleChoiceUseIndex: bool,
    questionFilePath: string,
    scoreFilePath: string)

  /** The clamp `load_config_file` applies after parsing: both counts become
      at least one and nothing else changes. */
  function ClampConfigFile(s: ConfigFile): (r: ConfigFile)
    ensures r.numberOfAttempts >= 1 && r.numberOfQuestions >= 1
    ensures s.numberOfAttempts >= 1 ==> r.numberOfAttempts == s.numberOfAttempts
    ensures s.numberOfQuestions >= 1 ==> r.numberOfQuestions == s.numberOfQuestions
    ensures s.numberOfAttempts < 1 ==> r.numberOfAttempts == 1
    ensures s.numberOfQuestions < 1 ==> r.numberOfQuestions == 1
    ensures r == s.(numberOfAttempts := r.numberOfAttempts, numberOfQuestions := r.numberOfQuestions)
  {
    s.(numberOfAttempts := AtLeastOne(s.numberOfAttempts), numberOfQuestions := AtLeastOne(s.numberOfQuestions))
  }

  /** Clamping the file settings first and then building a `Config` gives
      the same configuration as building it from the raw settings: the two
      clamps of the program agree. */
  lemma ClampConfigFileAgreesWithConfig(s: ConfigFile, displayTextFilePath: string, promptFilePath: string)
    ensures var c := ClampConfigFile(s);
            var fromClamped := NewConfig(c.numberOfQuestions, c.numberOfAttempts, c.multipleChoice,
              c.multipleChoiceUseIndex, c.questionFilePath, c.scoreFilePath, displayTextFilePath, promptFilePath);
            var fromRaw := NewConfig(s.numberOfQuestions, s.numberOfAttempts, s.multipleChoice,
              s.multipleChoiceUseIndex, s.questionFilePath, s.scoreFilePath, displayTextFilePath, promptFilePath);
            fromClamped == fromRaw
  {
  }

  datatype QuestionsLoad = QuestionsLoaded(questions: seq<Question>) | FileIncomplete

  /** The empty-file check on the decoded question list: an empty list is an
      incomplete file, any other list is returned as it is. */
  function LoadQuestionsFile(questions: seq<Question>): (r: QuestionsLoad)
    ensures r.FileIncomplete? <==> |questions| == 0
    ensures r.QuestionsLoaded? ==> r.questions == questions
  {
    if |questions| == 0 then FileIncomplete else QuestionsLoaded(questions)
  }

  predicate AllIntLiterals(parts: seq<string>) {
    forall i :: 0 <= i < |parts| ==> IsIntLiteral(parts[i])
  }

  /** The timestamp check of `load_score_file`: split once on ' ' into exactly
      a date and a time (unpacking fails otherwise), split those on '-' and ':'
      into exactly three parts each, and every part must pass `int()`. */
  function CheckTimestamp(ts: string): bool {
    var halves := Split(ts, ' ');
    && |halves| == 2
    && var date := Split(halves[0], '-');
       var time := Split(halves[1], ':');
       |date| == 3 && |time| == 3 && AllIntLiterals(date) && AllIntLiterals(time)
  }

  /** Date and time fields a timestamp can be built from: three integer
      literals each, none containing its own separator. */
  predicate TimestampFields(date: seq<string>, time: seq<string>) {
    && |date| == 3 && |time| == 3
    && AllIntLiterals(date) && AllIntLiterals(time)
    && (forall i :: 0 <= i < 3 ==> '-' !in date[i])
    && (forall i :: 0 <= i < 3 ==> ':' !in time[i])
  }

  /** "date-fields time:fields" */
  function Assemble(date: seq<string>, time: seq<string>): string
    requires |date| >= 1 && |time| >= 1
  {
    Join(date, '-') + " " + Join(time, ':')
  }

  /** Every accepted timestamp is three integer fields joined by '-', a
      space, and three integer fields joined by ':'. */
  lemma CheckTimestampSound(ts: string)
    requires CheckTimestamp(ts)
    ensures exists date, time :: TimestampFields(date, time) && ts == Assemble(date, time)
  {
    var halves := Split(ts, ' ');
    var date := Split(halves[0], '-');
    var time := Split(halves[1], ':');
    JoinSplit(ts, ' ');
    JoinSplit(halves[0], '-');
    JoinSplit(halves[1], ':');
    assert halves[1..] == [halves[1]];
    assert ts == Assemble(date, time);
  }

  /** Every such timestamp is accepted. */
  lemma CheckTimestampComplete(date: seq<string>, time: seq<string>)
    requires TimestampFields(date, time)
    ensures CheckTimestamp(Assemble(date, time))
  {
    forall i | 0 <= i < 3
      ensures ' ' !in date[i] && ' ' !in time[i]
    {
      IntLiteralChars(date[i], ' ');
      IntLiteralChars(time[i], ' ');
    }
    var d, t := Join(date, '-'), Join(time, ':');
    NotInJoin(date, '-', ' ');
    NotInJoin(time, ':', ' ');
    SplitAtFirstSeparator(d, t, ' ');
    SplitWithoutSeparator(t, ' ');
    assert Split(Assemble(date, time), ' ') == [d, t];
    SplitJoin(date, '-');
    SplitJoin(time, ':');
  }

  /** `load_score_file` after decoding: the contents come back unchanged
      exactly when every timestamp passes `CheckTimestamp` and every score
      lies in 0..100; otherwise it raises a value error. */
  function LoadScoreFile(contents: ScoreTable): (r: ScoreLoad)
    ensures r.ScoresLoaded? <==>
              forall u, i :: u in contents && 0 <= i < |contents[u]| ==>
                CheckTimestamp(contents[u][i].timestamp) && 0 <= contents[u][i].score <= 100
    ensures r.ScoresLoaded? ==> r.contents == contents
  {
    ValidateScores(contents, CheckTimestamp)
  }
}

=== FILE: main.dfy ===
/**
 The entry script's own logic. The rest of the script (question, answer and
 score handling) repeats the quiz and score modules word for word and is
 modelled there once.
 */
module MainScript {
  import opened Console

  /** `get_user_name`: the first line without a double quote; every line
      that has one is re-prompted. */
  function GetUserName(input: seq<string>): (r: Read<string>)
    ensures r.Exhausted? <==> forall i :: 0 <= i < |input| ==> '"' in input[i]
    ensures r.Got? ==>
              var k := |input| - |r.rest| - 1;
              && 0 <= k < |input|
              && r.rest == input[k + 1..]
              && r.value == input[k]
              && '"' !in r.value
              && forall i :: 0 <= i < k ==> '"' in input[i]
  {
    ReadUntil(input, line => '"' !in line)
  }
}

=== FILE: question.dfy ===
/** A quiz question as loaded from the question file. */
module QuizQuestion {

  /** The prompt, the correct answer, and every answer option shown in
      multiple-choice mode; the options include the correct answer, so a
      question with n options has n - 1 wrong ones. */
  datatype Question = Question(question: string, answer: string, options: seq<string>)
}

=== FILE: quiz.dfy ===
/**
 One quiz session: how many attempts a question gets, how a response is read
 and graded, how points are earned, and how the tally is folded over the
 questions asked. Console input is the explicit sequence of lines `input`;
 each shuffle is the already-shuffled list, which the caller must give as a
 permutation of the original.
 */
module Quiz {
  import opened Console
  import opened Text
  import opened QuizQuestion
  import opened QuizConfig
  import opened QuizResults

  /** The points earned on a question and whether it was answered correctly. */
  datatype Answer = Answer(points: int, correct: bool)

  function Min(a: int, b: int): int {
    if a <= b then a else b
  }

  /** The attempt cap for one question: in multiple-choice mode it never
      exceeds the number of wrong options, otherwise it is the configured
      number of attempts. */
  function EffectiveAttempts(cfg: Config, q: Question): (attempts: int)
    ensures cfg.multipleChoice ==>
              && attempts <= cfg.numberOfAttempts
              && attempts <= |q.options| - 1
              && (attempts == cfg.numberOfAttempts || attempts == |q.options| - 1)
    ensures !cfg.multipleChoice ==> attempts == cfg.numberOfAttempts
  {
    if cfg.multipleChoice then Min(cfg.numberOfAttempts, |q.options| - 1) else cfg.numberOfAttempts
  }

  /** With a clamped configuration and at least two options every question
      allows at least one attempt. */
  lemma EffectiveAttemptsPositive(cfg: Config, q: Question)
    requires Clamped(cfg)
    requires cfg.multipleChoice ==> |q.options| >= 2
    ensures 1 <= EffectiveAttempts(cfg, q) <= cfg.numberOfAttempts
  {
  }

  /** A line `select_answer_using_index` accepts: `int(line)` succeeds and
      names one of the options, counting from 1. */
  predicate IsValidIndex(line: string, optionCount: int) {
    var k := ParseInt(line);
    k.Some? && 1 <= k.value <= optionCount
  }

  function ValidIndexFor(optionCount: int): string -> bool {
    line => IsValidIndex(line, optionCount)
  }

  /** Reads lines until one is a valid option number, then grades the option
      it names against the answer, exactly (case matters). */
  function SelectAnswerUsingIndex(q: Question, input: seq<string>): (r: Read<bool>)
    ensures r.Exhausted? <==> forall i :: 0 <= i < |input| ==> !IsValidIndex(input[i], |q.options|)
    ensures r.Got? ==>
              var k := |input| - |r.rest| - 1;
              && 0 <= k < |input|
              && r.rest == input[k + 1..]
              && IsValidIndex(input[k], |q.options|)
              && (forall i :: 0 <= i < k ==> !IsValidIndex(input[i], |q.options|))
              && (r.value <==> q.options[ParseInt(input[k]).value - 1] == q.answer)
  {
    GradeIndex(q, ReadUntil(input, ValidIndexFor(|q.options|)))
  }

  /** Grades the option named by an accepted option number. */
  function GradeIndex(q: Question, read: Read<string>): Read<bool>
    requires read.Got? ==> IsValidIndex(read.value, |q.options|)
  {
    match read
    case Exhausted => Exhausted
    case Got(line, rest) => Got(q.options[ParseInt(line).value - 1] == q.answer, rest)
  }

  /** A line that is not a valid option number is skipped. */
  lemma SelectSkipsInvalid(q: Question, input: seq<string>)
    requires |input| > 0 && !IsValidIndex(input[0], |q.options|)
    ensures SelectAnswerUsingIndex(q, input) == SelectAnswerUsingIndex(q, input[1..])
  {
    ReadUntilSkips(input, ValidIndexFor(|q.options|));
  }

  /** Reads one line and grades it against the answer, ignoring case. */
  function TypeAnswer(q: Question, input: seq<string>): (r: Read<bool>)
    ensures r.Exhausted? <==> |input| == 0
    ensures r.Got? ==> r.rest == input[1..] && (r.value <==> Lower(input[0]) == Lower(q.answer))
  {
    if |input| == 0 then Exhausted else Got(Lower(input[0]) == Lower(q.answer), input[1..])
  }

  /** A typed response that matches the answer once both are upper-cased is
      graded correct. */
  lemma TypedAnswerIgnoresCase(q: Question, line: string, rest: seq<string>)
    requires Upper(line) == Upper(q.answer)
    ensures TypeAnswer(q, [line] + rest) == Got(true, rest)
  {
    LowerOfUpper(line);
    LowerOfUpper(q.answer);
  }

  /** A way of reading one graded response from the console: the grade and
      the lines left unread. */
  type Responder = seq<string> -> Read<bool>

  /** One graded response: by option number when `byIndex`, typed otherwise. */
  function Respond(byIndex: bool, q: Question): Responder {
    input => if byIndex then SelectAnswerUsingIndex(q, input) else TypeAnswer(q, input)
  }

  /** The attempt loop of `get_answer`, entered at attempt number `attempt`
      with `points` still on offer. */
  function AnswerLoop(respond: Responder, maxAttempts: int, attempt: int, points: int, input: seq<string>)
    : (r: Read<Answer>)
    requires 1 <= attempt
    requires points == maxAttempts - (attempt - 1)
    ensures r.Got? && r.value.correct ==> 1 <= r.value.points <= points
    ensures r.Got? && !r.value.correct ==> r.value.points == Min(points, 0)
    decreases maxAttempts - attempt + 1
  {
    if attempt > maxAttempts then Got(Answer(points, false), input)
    else
      match respond(input)
      case Exhausted => Exhausted
      case Got(correct, rest) =>
        if correct then Got(Answer(points, true), rest)
        else AnswerLoop(respond, maxAttempts, attempt + 1, points - 1, rest)
  }

  /** `get_answer`: points start at the attempt cap and lose one per wrong
      attempt; a correct answer earns between 1 and the cap, running out of
      attempts earns nothing. A cap of zero or less asks nothing at all. */
  function GetAnswer(multipleChoice: bool, selectUsingIndex: bool, maxAttempts: int, q: Question, input: seq<string>)
    : (r: Read<Answer>)
    ensures r.Got? && r.value.correct ==> 1 <= r.value.points <= maxAttempts
    ensures r.Got? && !r.value.correct ==> r.value.points == Min(maxAttempts, 0)
    ensures maxAttempts <= 0 ==> r == Got(Answer(maxAttempts, false), input)
  {
    AnswerLoop(Respond(multipleChoice && selectUsingIndex, q), maxAttempts, 1, maxAttempts, input)
  }

  /** Reference reading: the grades of the next `n` responses, one after the
      other, and the lines left after them. */
  function Grades(respond: Responder, input: seq<string>, n: nat): (r: Read<seq<bool>>)
    ensures r.Got? ==> |r.value| == n
    decreases n
  {
    if n == 0 then Got([], input)
    else
      match respond(input)
      case Exhausted => Exhausted
      case Got(g, rest) =>
        match Grades(respond, rest, n - 1)
        case Exhausted => Exhausted
        case Got(gs, rest') => Got([g] + gs, rest')
  }

  /** One step of the reference reading: the first grade, then the rest. */
  lemma GradesStep(respond: Responder, input: seq<string>, n: nat)
    requires n >= 1
    requires Grades(respond, input, n).Got?
    ensures var first := respond(input);
            && first.Got?
            && Grades(respond, first.rest, n - 1).Got?
            && Grades(respond, input, n).value == [first.value] + Grades(respond, first.rest, n - 1).value
            && Grades(respond, input, n).rest == Grades(respond, first.rest, n - 1).rest
  {
  }

  /** One attempt of the loop: a correct response ends it with the points on
      offer, a wrong one moves to the next attempt with one point less. */
  lemma AnswerLoopStep(respond: Responder, maxAttempts: int, attempt: int, input: seq<string>)
    requires 1 <= attempt <= maxAttempts
    requires respond(input).Got?
    ensures var first := respond(input);
            var points := maxAttempts - (attempt - 1);
            AnswerLoop(respond, maxAttempts, attempt, points, input)
              == if first.value then Got(Answer(points, true), first.rest)
                 else AnswerLoop(respond, maxAttempts, attempt + 1, points - 1, first.rest)
  {
  }

  lemma {:induction false} AnswerLoopFirstCorrect(respond: Responder, maxAttempts: int, attempt: int, input: seq<string>, k: nat)
    requires 1 <= attempt && 1 <= k && attempt + k - 1 <= maxAttempts
    requires Grades(respond, input, k).Got?
    requires var gs := Grades(respond, input, k).value;
             (forall i :: 0 <= i < k - 1 ==> !gs[i]) && gs[k - 1]
    ensures AnswerLoop(respond, maxAttempts, attempt, maxAttempts - (attempt - 1), input)
         == Got(Answer(maxAttempts - (attempt - 1) - (k - 1), true), Grades(respond, input, k).rest)
    decreases k
  {
    var first := respond(input);
    GradesStep(respond, input, k);
    var gs := Grades(respond, input, k).value;
    var tail := Grades(respond, first.rest, k - 1);
    assert gs[0] == first.value;
    AnswerLoopStep(respond, maxAttempts, attempt, input);
    if k > 1 {
      assert forall i :: 0 <= i < |tail.value| ==> tail.value[i] == gs[i + 1];
      AnswerLoopFirstCorrect(respond, maxAttempts, attempt + 1, first.rest, k - 1);
    }
  }

  lemma {:induction false} AnswerLoopNeverCorrect(respond: Responder, maxAttempts: int, attempt: int, input: seq<string>)
    requires 1 <= attempt <= maxAttempts + 1
    requires Grades(respond, input, maxAttempts - attempt + 1).Got?
    requires var gs := Grades(respond, input, maxAttempts - attempt + 1).value;
             forall i :: 0 <= i < |gs| ==> !gs[i]
    ensures AnswerLoop(respond, maxAttempts, attempt, maxAttempts - (attempt - 1), input)
         == Got(Answer(0, false), Grades(respond, input, maxAttempts - attempt + 1).rest)
    decreases maxAttempts - attempt + 1
  {
    if attempt <= maxAttempts {
      var n := maxAttempts - attempt + 1;
      var first := respond(input);
      GradesStep(respond, input, n);
      var gs := Grades(respond, input, n).value;
      var tail := Grades(respond, first.rest, n - 1);
      assert gs[0] == first.value;
      AnswerLoopStep(respond, maxAttempts, attempt, input);
      assert forall i :: 0 <= i < |tail.value| ==> tail.value[i] == gs[i + 1];
      AnswerLoopNeverCorrect(respond, maxAttempts, attempt + 1, first.rest);
    }
  }

  /** When the first correct response is the k-th (k within the cap), the
      question earns the cap minus the k - 1 wrong attempts, and exactly k
      responses are read. */
  lemma GetAnswerFirstCorrect(multipleChoice: bool, selectUsingIndex: bool, maxAttempts: int, q: Question, input: seq<string>, k: nat)
    requires 1 <= k <= maxAttempts
    requires Grades(Respond(multipleChoice && selectUsingIndex, q), input, k).Got?
    requires var gs := Grades(Respond(multipleChoice && selectUsingIndex, q), input, k).value;
             (forall i :: 0 <= i < k - 1 ==> !gs[i]) && gs[k - 1]
    ensures GetAnswer(multipleChoice, selectUsingIndex, maxAttempts, q, input)
         == Got(Answer(maxAttempts - (k - 1), true), Grades(Respond(multipleChoice && selectUsingIndex, q), input, k).rest)
  {
    AnswerLoopFirstCorrect(Respond(multipleChoice && selectUsingIndex, q), maxAttempts, 1, input, k);
  }

  /** When none of the first `maxAttempts` responses is correct, exactly that
      many are read and the question earns nothing. */
  lemma GetAnswerNeverCorrect(multipleChoice: bool, selectUsingIndex: bool, maxAttempts: int, q: Question, input: seq<string>)
    requires maxAttempts >= 0
    requires Grades(Respond(multipleChoice && selectUsingIndex, q), input, maxAttempts).Got?
    requires var gs := Grades(Respond(multipleChoice && selectUsingIndex, q), input, maxAttempts).value;
             forall i :: 0 <= i < |gs| ==> !gs[i]
    ensures GetAnswer(multipleChoice, selectUsingIndex, maxAttempts, q, input)
         == Got(Answer(0, false), Grades(Respond(multipleChoice && selectUsingIndex, q), input, maxAttempts).rest)
  {
    AnswerLoopNeverCorrect(Respond(multipleChoice && selectUsingIndex, q), maxAttempts, 1, input);
  }

  /** The loop depends on the lines only through what the next response
      reads. */
  lemma AnswerLoopSameResponse(respond: Responder, maxAttempts: int, a: seq<string>, b: seq<string>)
    requires maxAttempts >= 1
    requires respond(a) == respond(b)
    ensures AnswerLoop(respond, maxAttempts, 1, maxAttempts, a) == AnswerLoop(respond, maxAttempts, 1, maxAttempts, b)
  {
  }

  /** In index mode a line that is not a valid option number is re-prompted
      and costs neither an attempt nor a point. */
  lemma InvalidIndexUsesNoAttempt(maxAttempts: int, q: Question, line: string, input: seq<string>)
    requires maxAttempts >= 1
    requires !IsValidIndex(line, |q.options|)
    ensures GetAnswer(true, true, maxAttempts, q, [line] + input) == GetAnswer(true, true, maxAttempts, q, input)
  {
    var respond := Respond(true, q);
    SelectSkipsInvalid(q, [line] + input);
    assert ([line] + input)[1..] == input;
    assert respond([line] + input) == respond(input);
    AnswerLoopSameResponse(respond, maxAttempts, [line] + input, input);
  }

  /** The question as `get_answer` sees it: with its options in shuffled order
      in multiple-choice mode. */
  function Shown(cfg: Config, q: Question, presented: seq<string>): Question {
    if cfg.multipleChoice then q.(options := presented) else q
  }

  /** `do_question`: the maximum grows by the attempt cap whatever happens;
      only a correct answer adds its points to the score and one to the
      correct count. */
  function DoQuestion(cfg: Config, q: Question, presented: seq<string>, results: Results, input: seq<string>)
    : (r: Read<Results>)
    requires cfg.multipleChoice ==> multiset(presented) == multiset(q.options)
    ensures r.Got? ==> r.value.maxScore == results.maxScore + EffectiveAttempts(cfg, q)
    ensures r.Got? ==>
              || (r.value.questionsCorrect == results.questionsCorrect && r.value.score == results.score)
              || (&& r.value.questionsCorrect == results.questionsCorrect + 1
                  && results.score + 1 <= r.value.score <= results.score + EffectiveAttempts(cfg, q))
  {
    var shown := Shown(cfg, q, presented);
    assert |shown.options| == |q.options| by {
      assert |multiset(presented)| == |presented|;
    }
    var attempts := EffectiveAttempts(cfg, shown);
    var started := IncreaseMaxScoreBy(results, attempts);
    match GetAnswer(cfg.multipleChoice, cfg.selectUsingIndex, attempts, shown, input)
    case Exhausted => Exhausted
    case Got(a, rest) =>
      if a.correct then Got(IncrementQuestionsCorrect(IncreaseScoreBy(started, a.points)), rest)
      else Got(started, rest)
  }

  /** The tally changes by exactly what `get_answer` reports: the score and
      the correct count move if and only if the answer was correct. */
  lemma DoQuestionFollowsAnswer(cfg: Config, q: Question, presented: seq<string>, results: Results, input: seq<string>)
    requires cfg.multipleChoice ==> multiset(presented) == multiset(q.options)
    ensures var a := GetAnswer(cfg.multipleChoice, cfg.selectUsingIndex, EffectiveAttempts(cfg, q), Shown(cfg, q, presented), input);
            var r := DoQuestion(cfg, q, presented, results, input);
            && (r.Got? <==> a.Got?)
            && (r.Got? ==>
                  && r.rest == a.rest
                  && (r.value.questionsCorrect == results.questionsCorrect + 1 <==> a.value.correct)
                  && r.value.score == results.score + (if a.value.correct then a.value.points else 0))
  {
    assert |multiset(presented)| == |presented|;
    assert EffectiveAttempts(cfg, Shown(cfg, q, presented)) == EffectiveAttempts(cfg, q);
  }

  /** The sum of the attempt caps of the questions: the quiz's maximum score. */
  function TotalAttempts(cfg: Config, asked: seq<Question>): int {
    if |asked| == 0 then 0 else EffectiveAttempts(cfg, asked[0]) + TotalAttempts(cfg, asked[1..])
  }

  lemma {:induction false} TotalAttemptsAtLeastCount(cfg: Config, asked: seq<Question>)
    requires forall i :: 0 <= i < |asked| ==> EffectiveAttempts(cfg, asked[i]) >= 1
    ensures TotalAttempts(cfg, asked) >= |asked|
    decreases |asked|
  {
    if |asked| > 0 {
      TotalAttemptsAtLeastCount(cfg, asked[1..]);
    }
  }

  lemma {:induction false} TotalAttemptsNonNegative(cfg: Config, asked: seq<Question>)
    requires forall i :: 0 <= i < |asked| ==> EffectiveAttempts(cfg, asked[i]) >= 0
    ensures TotalAttempts(cfg, asked) >= 0
    decreases |asked|
  {
    if |asked| > 0 {
      TotalAttemptsNonNegative(cfg, asked[1..]);
    }
  }

  /** Typed answers read one line per attempt, so the attempt loop finishes
      once as many lines as attempts remain are available, and reads no more
      than that. */
  lemma {:induction false} TypedLoopReadsAtMostCap(q: Question, maxAttempts: int, attempt: int, input: seq<string>)
    requires 1 <= attempt <= maxAttempts + 1
    requires |input| >= maxAttempts - attempt + 1
    ensures var r := AnswerLoop(Respond(false, q), maxAttempts, attempt, maxAttempts - (attempt - 1), input);
            r.Got? && |r.rest| + (maxAttempts - attempt + 1) >= |input|
    decreases maxAttempts - attempt + 1
  {
    if attempt <= maxAttempts {
      assert Respond(false, q)(input) == TypeAnswer(q, input);
      if !TypeAnswer(q, input).value {
        TypedLoopReadsAtMostCap(q, maxAttempts, attempt + 1, input[1..]);
      }
    }
  }

  /** With typed answers and a non-negative cap, `get_answer` always returns
      when the input holds at least `cap` lines, and reads at most `cap`. */
  lemma GetAnswerTypedCompletes(multipleChoice: bool, selectUsingIndex: bool, maxAttempts: int, q: Question, input: seq<string>)
    requires !(multipleChoice && selectUsingIndex)
    requires 0 <= maxAttempts <= |input|
    ensures var r := GetAnswer(multipleChoice, selectUsingIndex, maxAttempts, q, input);
            r.Got? && |r.rest| + maxAttempts >= |input|
  {
    TypedLoopReadsAtMostCap(q, maxAttempts, 1, input);
  }

  /** Each shown option list is a shuffle of its question's options. */
  predicate ShufflesOf(presentations: seq<seq<string>>, asked: seq<Question>) {
    && |presentations| == |asked|
    && forall i :: 0 <= i < |asked| ==> multiset(presentations[i]) == multiset(asked[i].options)
  }

  /** The question loop of `do_quiz`, folding `do_question` over `asked` in
      order. The maximum grows by every cap whether or not answers are right. */
  function AskQuestions(cfg: Config, asked: seq<Question>, presentations: seq<seq<string>>, results: Results, input: seq<string>)
    : (r: Read<Results>)
    requires ShufflesOf(presentations, asked)
    ensures r.Got? ==> r.value.maxScore == results.maxScore + TotalAttempts(cfg, asked)
    ensures r.Got? ==> results.questionsCorrect <= r.value.questionsCorrect <= results.questionsCorrect + |asked|
    ensures r.Got? ==> results.score <= r.value.score
    ensures r.Got? && (forall i :: 0 <= i < |asked| ==> EffectiveAttempts(cfg, asked[i]) >= 0) ==>
              r.value.score - results.score <= TotalAttempts(cfg, asked)
    decreases |asked|
  {
    if |asked| == 0 then Got(results, input)
    else
      match DoQuestion(cfg, asked[0], presentations[0], results, input)
      case Exhausted => Exhausted
      case Got(next, rest) => AskQuestions(cfg, asked[1..], presentations[1..], next, rest)
  }

  /** With typed answers and non-negative caps, the question loop always
      finishes when the input holds at least the sum of the caps in lines. */
  lemma {:induction false} AskQuestionsTypedCompletes(cfg: Config, asked: seq<Question>, presentations: seq<seq<string>>, results: Results, input: seq<string>)
    requires ShufflesOf(presentations, asked)
    requires !(cfg.multipleChoice && cfg.selectUsingIndex)
    requires forall i :: 0 <= i < |asked| ==> EffectiveAttempts(cfg, asked[i]) >= 0
    requires |input| >= TotalAttempts(cfg, asked)
    ensures var r := AskQuestions(cfg, asked, presentations, results, input);
            r.Got? && |r.rest| + TotalAttempts(cfg, asked) >= |input|
    decreases |asked|
  {
    if |asked| > 0 {
      var q := asked[0];
      var cap := EffectiveAttempts(cfg, q);
      var shown := Shown(cfg, q, presentations[0]);
      TotalAttemptsNonNegative(cfg, asked[1..]);
      DoQuestionFollowsAnswer(cfg, q, presentations[0], results, input);
      GetAnswerTypedCompletes(cfg.multipleChoice, cfg.selectUsingIndex, cap, shown, input);
      var next := DoQuestion(cfg, q, presentations[0], results, input);
      assert forall i :: 0 <= i < |asked[1..]| ==> asked[1..][i] == asked[i + 1];
      AskQuestionsTypedCompletes(cfg, asked[1..], presentations[1..], next.value, next.rest);
    }
  }

  /** The end of a quiz: the final tally, its adjusted score and the unread
      lines; or the input ran out; or the maximum score was zero and
      `calculate_adjusted_score` divided by zero. */
  datatype QuizOutcome =
    | Finished(results: Results, finalScore: int, rest: seq<string>)
    | InputEnded
    | ZeroDivision

  /** `do_quiz`: asks the first `numberOfQuestions` questions of the shuffled
      list and reports the adjusted score of the tally. The program never
      lowers the question count to the number of questions, so the caller must
      supply enough of them. */
  function DoQuiz(cfg: Config, questions: seq<Question>, shuffled: seq<Question>, presentations: seq<seq<string>>, input: seq<string>)
    : (o: QuizOutcome)
    requires Clamped(cfg)
    requires cfg.numberOfQuestions <= |questions|
    requires |shuffled| == |questions| && multiset(shuffled) == multiset(questions)
    requires ShufflesOf(presentations, shuffled[..cfg.numberOfQuestions])
    ensures o.Finished? ==>
              && o.results.maxScore == TotalAttempts(cfg, shuffled[..cfg.numberOfQuestions]) != 0
              && 0 <= o.results.questionsCorrect <= cfg.numberOfQuestions
              && 0 <= o.results.score
    ensures o.ZeroDivision? ==> TotalAttempts(cfg, shuffled[..cfg.numberOfQuestions]) == 0
    ensures o.InputEnded? <==>
              AskQuestions(cfg, shuffled[..cfg.numberOfQuestions], presentations, NewResults(), input).Exhausted?
    ensures o.ZeroDivision? <==> !o.InputEnded? && TotalAttempts(cfg, shuffled[..cfg.numberOfQuestions]) == 0
    ensures o.Finished? && o.results.score <= o.results.maxScore ==>
              && 0 <= o.finalScore <= 100
              && o.finalScore * o.results.maxScore <= 100 * o.results.score < (o.finalScore + 1) * o.results.maxScore
  {
    var asked := shuffled[..cfg.numberOfQuestions];
    match AskQuestions(cfg, asked, presentations, NewResults(), input)
    case Exhausted => InputEnded
    case Got(results, rest) =>
      if results.maxScore == 0 then ZeroDivision
      else Finished(results, AdjustedScore(results), rest)
  }

  /** A quiz whose configuration came from the constructor and whose
      questions all have at least two options in multiple-choice mode. */
  predicate WellFormedQuiz(cfg: Config, questions: seq<Question>) {
    && Clamped(cfg)
    && (cfg.multipleChoice ==> forall i :: 0 <= i < |questions| ==> |questions[i].options| >= 2)
  }

  /** For a well-formed quiz the division by zero cannot happen, and a
      finished quiz has 0 <= score <= maximum, at least one point of maximum per
      question, and an adjusted score in 0..100. */
  lemma DoQuizWellFormed(cfg: Config, questions: seq<Question>, shuffled: seq<Question>, presentations: seq<seq<string>>, input: seq<string>)
    requires WellFormedQuiz(cfg, questions)
    requires cfg.numberOfQuestions <= |questions|
    requires |shuffled| == |questions| && multiset(shuffled) == multiset(questions)
    requires ShufflesOf(presentations, shuffled[..cfg.numberOfQuestions])
    ensures var o := DoQuiz(cfg, questions, shuffled, presentations, input);
            && !o.ZeroDivision?
            && (o.Finished? ==>
                  && 0 <= o.results.score <= o.results.maxScore
                  && o.results.maxScore >= cfg.numberOfQuestions
                  && 0 <= o.finalScore <= 100)
  {
    AskedCapsPositive(cfg, questions, shuffled);
    TotalAttemptsAtLeastCount(cfg, shuffled[..cfg.numberOfQuestions]);
  }

  /** In a well-formed quiz every asked question allows at least one attempt. */
  lemma AskedCapsPositive(cfg: Config, questions: seq<Question>, shuffled: seq<Question>)
    requires WellFormedQuiz(cfg, questions)
    requires cfg.numberOfQuestions <= |questions|
    requires |shuffled| == |questions| && multiset(shuffled) == multiset(questions)
    ensures forall i :: 0 <= i < cfg.numberOfQuestions ==> EffectiveAttempts(cfg, shuffled[..cfg.numberOfQuestions][i]) >= 1
  {
    var asked := shuffled[..cfg.numberOfQuestions];
    forall i | 0 <= i < |asked|
      ensures EffectiveAttempts(cfg, asked[i]) >= 1
    {
      assert asked[i] in multiset(questions);
      var j :| 0 <= j < |questions| && questions[j] == asked[i];
      EffectiveAttemptsPositive(cfg, asked[i]);
    }
  }

  /** A well-formed quiz answered by typing finishes with a score whenever
      the input holds one line for every attempt it may ask for. */
  lemma DoQuizTypedFinishes(cfg: Config, questions: seq<Question>, shuffled: seq<Question>, presentations: seq<seq<string>>, input: seq<string>)
    requires WellFormedQuiz(cfg, questions)
    requires cfg.numberOfQuestions <= |questions|
    requires |shuffled| == |questions| && multiset(shuffled) == multiset(questions)
    requires ShufflesOf(presentations, shuffled[..cfg.numberOfQuestions])
    requires !(cfg.multipleChoice && cfg.selectUsingIndex)
    requires |input| >= TotalAttempts(cfg, shuffled[..cfg.numberOfQuestions])
    ensures DoQuiz(cfg, questions, shuffled, presentations, input).Finished?
  {
    AskedCapsPositive(cfg, questions, shuffled);
    AskQuestionsTypedCompletes(cfg, shuffled[..cfg.numberOfQuestions], presentations, NewResults(), input);
    DoQuizWellFormed(cfg, questions, shuffled, presentations, input);
  }
}

=== FILE: results.dfy ===
/** The running tally of a quiz session. */
module QuizResults {

  datatype Results = Results(maxScore: int, score: int, questionsCorrect: int)

  /** `Results()`: a fresh tally. */
  function NewResults(): (r: Results)
    ensures r.maxScore == 0 && r.score == 0 && r.questionsCorrect == 0
  {
    Results(0, 0, 0)
  }

  function IncreaseMaxScoreBy(r: Results, n: int): (r': Results)
    ensures r'.maxScore == r.maxScore + n
    ensures r'.score == r.score && r'.questionsCorrect == r.questionsCorrect
  {
    r.(maxScore := r.maxScore + n)
  }

  function IncreaseScoreBy(r: Results, n: int): (r': Results)
    ensures r'.score == r.score + n
    ensures r'.maxScore == r.maxScore && r'.questionsCorrect == r.questionsCorrect
  {
    r.(score := r.score + n)
  }

  function IncrementQuestionsCorrect(r: Results): (r': Results)
    ensures r'.questionsCorrect == r.questionsCorrect + 1
    ensures r'.maxScore == r.maxScore && r'.score == r.score
  {
    r.(questionsCorrect := r.questionsCorrect + 1)
  }

  function Abs(n: int): nat {
    if n < 0 then -n else n
  }

  /** `int(a / b)` in exact arithmetic: the quotient rounded toward zero. */
  function DivTowardZero(a: int, b: int): int
    requires b != 0
  {
    if (a < 0) == (b < 0) then Abs(a) / Abs(b) else -(Abs(a) / Abs(b))
  }

  /** `calculate_adjusted_score`: the score as a whole percentage of the
      maximum. It divides by `maxScore`, so it is defined only when that is not
      zero; for a tally within bounds it is the floor of the exact percentage. */
  function AdjustedScore(r: Results): (pct: int)
    requires r.maxScore != 0
    ensures 0 <= r.score <= r.maxScore ==>
              && 0 <= pct <= 100
              && pct * r.maxScore <= 100 * r.score < (pct + 1) * r.maxScore
  {
    FloorPercent(r.score, r.maxScore);
    DivTowardZero(100 * r.score, r.maxScore)
  }

  /** The quotient of a percentage within bounds is its floor and lies in
      0..100. */
  lemma FloorPercent(score: int, maxScore: int)
    requires maxScore != 0
    ensures var pct := DivTowardZero(100 * score, maxScore);
            0 <= score <= maxScore ==>
              && 0 <= pct <= 100
              && pct * maxScore <= 100 * score < (pct + 1) * maxScore
  {
    if !(0 <= score <= maxScore) {
      return;
    }
    var a := 100 * score;
    var pct := a / maxScore;
    assert DivTowardZero(a, maxScore) == pct;
    assert pct * maxScore + a % maxScore == a;
    assert (pct + 1) * maxScore == pct * maxScore + maxScore;
    DivMonotonic(a, 100 * maxScore, maxScore);
    DivExact(100, maxScore);
    assert 100 * maxScore == maxScore * 100;
  }

  /** Full marks give 100 and no marks give 0. */
  lemma AdjustedScoreEndpoints(r: Results)
    requires r.maxScore > 0
    ensures r.score == r.maxScore ==> AdjustedScore(r) == 100
    ensures r.score == 0 ==> AdjustedScore(r) == 0
  {
    if r.score == r.maxScore {
      assert 100 * r.score == 100 * r.maxScore;
      DivExact(100, r.maxScore);
    }
  }

  lemma DivExact(k: int, m: int)
    requires k >= 0 && m > 0
    ensures (k * m) / m == k
  {
    var q := (k * m) / m;
    assert q * m <= k * m < q * m + m;
    if q < k {
      MulMonotonic(q + 1, k, m);
    } else if q > k {
      MulMonotonic(k + 1, q, m);
    }
  }

  /** A higher score never gives a lower percentage. */
  lemma AdjustedScoreMonotonic(r: Results, s: Results)
    requires r.maxScore == s.maxScore > 0
    requires 0 <= r.score <= s.score <= s.maxScore
    ensures AdjustedScore(r) <= AdjustedScore(s)
  {
    var a, b, m := 100 * r.score, 100 * s.score, r.maxScore;
    assert a <= b;
    DivMonotonic(a, b, m);
  }

  lemma DivMonotonic(a: nat, b: nat, m: int)
    requires a <= b && m > 0
    ensures a / m <= b / m
  {
    if a / m > b / m {
      assert (a / m) * m >= (b / m + 1) * m by {
        MulMonotonic(b / m + 1, a / m, m);
      }
    }
  }

  lemma MulMonotonic(x: int, y: int, m: int)
    requires x <= y && m > 0
    ensures x * m <= y * m
  {
  }
}

=== FILE: scenarios.dfy ===
/** Worked examples of the quiz rules, stated on concrete values. */
module Scenarios {
  import opened Console
  import opened Text
  import opened QuizQuestion
  import opened QuizConfig
  import opened QuizResults
  import opened Quiz
  import opened ScoreHistory

  /** Three wrong options and five configured attempts give three attempts. */
  lemma ThreeWrongOptionsCapAttempts()
    ensures EffectiveAttempts(NewConfig(1, 5, true, true, "", "", "", ""),
                              Question("Capital of France?", "Paris", ["Paris", "Rome", "Oslo", "Bern"])) == 3
  {
  }

  /** "PARIS" typed for the answer "Paris" is correct. */
  lemma TypedCapitalsMatch()
    ensures TypeAnswer(Question("Capital of France?", "Paris", []), ["PARIS"]) == Got(true, [])
  {
    TypedAnswerIgnoresCase(Question("Capital of France?", "Paris", []), "PARIS", []);
  }

  /** The settings and questions of the two-question session below: two
      attempts, multiple choice by option number, three options each. */
  const SessionConfig := NewConfig(2, 2, true, true, "", "", "", "")
  const Q1 := Question("Q1", "a", ["a", "b", "c"])
  const Q2 := Question("Q2", "x", ["x", "y", "z"])

  lemma SmallNumbersParse()
    ensures ParseInt("1") == Some(1) && ParseInt("2") == Some(2) && ParseInt("3") == Some(3)
  {
    ParseNatToString(1);
    ParseNatToString(2);
    ParseNatToString(3);
    assert NatToString(1) == "1" && NatToString(2) == "2" && NatToString(3) == "3";
  }

  /** Option 1 of the first question is right at the first attempt. */
  lemma FirstQuestionRightAtOnce()
    ensures DoQuestion(SessionConfig, Q1, Q1.options, NewResults(), ["1", "2", "3"]) == Got(Results(2, 2, 1), ["2", "3"])
  {
    SmallNumbersParse();
    var input := ["1", "2", "3"];
    assert input[1..] == ["2", "3"];
    assert SelectAnswerUsingIndex(Q1, input) == Got(true, ["2", "3"]);
    AnswerLoopStep(Respond(true, Q1), 2, 1, input);
  }

  /** Options 2 and 3 of the second question are both wrong: two attempts
      used, no points. */
  lemma SecondQuestionWrongTwice()
    ensures DoQuestion(SessionConfig, Q2, Q2.options, Results(2, 2, 1), ["2", "3"]) == Got(Results(4, 2, 1), [])
  {
    SmallNumbersParse();
    var input := ["2", "3"];
    assert input[1..] == ["3"] && ["3"][1..] == [];
    assert SelectAnswerUsingIndex(Q2, input) == Got(false, ["3"]);
    assert SelectAnswerUsingIndex(Q2, ["3"]) == Got(false, []);
    AnswerLoopStep(Respond(true, Q2), 2, 1, input);
    AnswerLoopStep(Respond(true, Q2), 2, 2, ["3"]);
  }

  /** The second question on its own, after the first. */
  lemma SecondQuestionAsked()
    ensures AskQuestions(SessionConfig, [Q2], [Q2.options], Results(2, 2, 1), ["2", "3"]) == Got(Results(4, 2, 1), [])
  {
    SecondQuestionWrongTwice();
    assert [Q2][1..] == [] && [Q2.options][1..] == [];
  }

  /** Both questions in turn: 2 of 4 points, one question correct. */
  lemma BothQuestionsAsked(input: seq<string>)
    requires input == ["1", "2", "3"]
    ensures AskQuestions(SessionConfig, [Q1, Q2], [Q1.options, Q2.options], NewResults(), input)
         == Got(Results(4, 2, 1), [])
  {
    var asked, shown := [Q1, Q2], [Q1.options, Q2.options];
    assert asked[0] == Q1 && shown[0] == Q1.options;
    assert asked[1..] == [Q2] && shown[1..] == [Q2.options];
    FirstQuestionRightAtOnce();
    SecondQuestionAsked();
  }

  /** Two questions, two attempts, answered by option number: the first right
      at once (2 points), the second wrong twice (0 points), give 2 of 4
      points, one question correct, 50 percent. */
  lemma TwoQuestionSession(input: seq<string>)
    requires input == ["1", "2", "3"]
    ensures DoQuiz(SessionConfig, [Q1, Q2], [Q1, Q2], [Q1.options, Q2.options], input)
         == Finished(Results(4, 2, 1), 50, [])
  {
    assert [Q1, Q2][..2] == [Q1, Q2];
    BothQuestionsAsked(input);
    assert AdjustedScore(Results(4, 2, 1)) == 50;
  }

  /** Of three saved scores 50, 90, 90 the two 90s come first, in the order
      they were saved. */
  lemma RankingKeepsTiesInOrder()
    ensures SortDict([Entry("2024-01-01 10:00:00", 50), Entry("2024-01-02 10:00:00", 90), Entry("2024-01-03 10:00:00", 90)])
         == [Entry("2024-01-02 10:00:00", 90), Entry("2024-01-03 10:00:00", 90), Entry("2024-01-01 10:00:00", 50)]
  {
  }
}

=== FILE: score_file.dfy ===
/**
 The validation loop shared by both score-file loaders: every timestamp of
 every user must pass the loader's timestamp check and every score must lie in
 0..100; the contents are returned unchanged when all entries pass and a value
 error is raised otherwise.
 */
module ScoreFile {
  import opened ScoreHistory

  datatype ScoreLoad = ScoresLoaded(contents: ScoreTable) | ScoreValueError

  /** The loader's outcome as the session end sees it: a value error marks
      the score file as corrupted. */
  function AsLoaded(l: ScoreLoad): (r: LoadedScores)
    ensures r.Loaded? <==> l.ScoresLoaded?
    ensures r.Loaded? ==> r.table == l.contents
  {
    match l
    case ScoresLoaded(c) => Loaded(c)
    case ScoreValueError => Corrupted
  }

  /** `score in range(0, 101)` */
  predicate ScoreInRange(score: int) {
    0 <= score <= 100
  }

  /** The inner loop over one user's entries. */
  function ValidHistory(h: History, acceptTimestamp: string -> bool): (ok: bool)
    ensures ok <==> forall i :: 0 <= i < |h| ==> acceptTimestamp(h[i].timestamp) && ScoreInRange(h[i].score)
    decreases |h|
  {
    if |h| == 0 then true
    else acceptTimestamp(h[0].timestamp) && ScoreInRange(h[0].score) && ValidHistory(h[1..], acceptTimestamp)
  }

  function ValidateScores(contents: ScoreTable, acceptTimestamp: string -> bool): (r: ScoreLoad)
    ensures r.ScoresLoaded? <==>
              forall u, i :: u in contents && 0 <= i < |contents[u]| ==>
                acceptTimestamp(contents[u][i].timestamp) && ScoreInRange(contents[u][i].score)
    ensures r.ScoresLoaded? ==> r.contents == contents
  {
    if forall u :: u in contents ==> ValidHistory(contents[u], acceptTimestamp) then ScoresLoaded(contents)
    else ScoreValueError
  }
}

=== FILE: scores.dfy ===
/**
 Saving and viewing past scores. The score table maps a user name to that
 user's scores; each user's scores are a dictionary from timestamp to score,
 kept here as a list of entries in the dictionary's insertion order, because
 the order in which equal scores are listed depends on it.
 */
module ScoreHistory {
  import opened Console
  import opened Text

  datatype Entry = Entry(timestamp: string, score: int)

  /** One user's scores, in insertion order. */
  type History = seq<Entry>

  type ScoreTable = map<string, History>

  predicate DistinctTimestamps(h: History) {
    forall i, j :: 0 <= i < j < |h| ==> h[i].timestamp != h[j].timestamp
  }

  /** A table a JSON object can hold: each user's timestamps are dictionary
      keys, so no timestamp occurs twice. */
  predicate WellKeyed(t: ScoreTable) {
    forall u :: u in t ==> DistinctTimestamps(t[u])
  }

  /** `h.get(ts)` */
  function Lookup(h: History, ts: string): Option<int> {
    if |h| == 0 then None
    else if h[0].timestamp == ts then Some(h[0].score)
    else Lookup(h[1..], ts)
  }

  lemma {:induction false} LookupFound(h: History, ts: string)
    requires Lookup(h, ts).Some?
    ensures Entry(ts, Lookup(h, ts).value) in h
    decreases |h|
  {
    if h[0].timestamp != ts {
      LookupFound(h[1..], ts);
    }
  }

  /** `h[ts] = score`: overwrites the entry in place when the timestamp is
      already there, appends a new entry otherwise. */
  function SetScore(h: History, ts: string, score: int): (r: History)
    ensures Lookup(r, ts) == Some(score)
    ensures forall t :: t != ts ==> Lookup(r, t) == Lookup(h, t)
    ensures Lookup(h, ts).Some? ==>
              |r| == |h| && forall i :: 0 <= i < |h| ==> r[i].timestamp == h[i].timestamp
    ensures Lookup(h, ts).None? ==> r == h + [Entry(ts, score)]
    decreases |h|
  {
    if |h| == 0 then [Entry(ts, score)]
    else if h[0].timestamp == ts then [Entry(ts, score)] + h[1..]
    else [h[0]] + SetScore(h[1..], ts, score)
  }

  lemma {:induction false} LookupMissing(h: History, ts: string)
    requires Lookup(h, ts).None?
    ensures forall i :: 0 <= i < |h| ==> h[i].timestamp != ts
    decreases |h|
  {
    if |h| > 0 {
      LookupMissing(h[1..], ts);
      assert forall i :: 1 <= i < |h| ==> h[i] == h[1..][i - 1];
    }
  }

  /** Setting a score keeps the timestamps of a dictionary distinct. */
  lemma SetScoreKeepsTimestampsDistinct(h: History, ts: string, score: int)
    requires DistinctTimestamps(h)
    ensures DistinctTimestamps(SetScore(h, ts, score))
  {
    var r := SetScore(h, ts, score);
    if Lookup(h, ts).None? {
      LookupMissing(h, ts);
      assert r == h + [Entry(ts, score)];
      forall i, j | 0 <= i < j < |r|
        ensures r[i].timestamp != r[j].timestamp
      {
        if j == |h| {
          assert r[i] == h[i] && r[j].timestamp == ts;
        } else {
          assert r[i] == h[i] && r[j] == h[j];
        }
      }
    } else {
      forall i, j | 0 <= i < j < |r|
        ensures r[i].timestamp != r[j].timestamp
      {
        assert r[i].timestamp == h[i].timestamp && r[j].timestamp == h[j].timestamp;
      }
    }
  }

  /** The merge step of `save_and_view_scores`: record `score` under `ts` for
      `name`, creating the user when new; nothing else changes. */
  function Merge(scores: ScoreTable, name: string, ts: string, score: int): (r: ScoreTable)
    ensures r.Keys == scores.Keys + {name}
    ensures forall u :: u in scores && u != name ==> r[u] == scores[u]
    ensures Lookup(r[name], ts) == Some(score)
    ensures name in scores ==> forall t :: t != ts ==> Lookup(r[name], t) == Lookup(scores[name], t)
    ensures name !in scores ==> r[name] == [Entry(ts, score)]
    ensures name in scores && Lookup(scores[name], ts).Some? ==>
              && |r[name]| == |scores[name]|
              && forall i :: 0 <= i < |r[name]| ==> r[name][i].timestamp == scores[name][i].timestamp
    ensures WellKeyed(scores) ==> WellKeyed(r)
  {
    if name in scores then
      assert WellKeyed(scores) ==> DistinctTimestamps(SetScore(scores[name], ts, score)) by {
        if WellKeyed(scores) {
          SetScoreKeepsTimestampsDistinct(scores[name], ts, score);
        }
      }
      scores[name := SetScore(scores[name], ts, score)]
    else scores[name := [Entry(ts, score)]]
  }

  /** Saving a score for a timestamp the user does not have yet keeps every
      earlier entry, in place, and adds exactly one. */
  lemma MergeNewTimestamp(scores: ScoreTable, name: string, ts: string, score: int)
    requires name in scores && Lookup(scores[name], ts).None?
    ensures Merge(scores, name, ts, score)[name] == scores[name] + [Entry(ts, score)]
  {
  }

  /** Highest score first. */
  predicate NonIncreasing(h: History) {
    forall i, j :: 0 <= i < j < |h| ==> h[i].score >= h[j].score
  }

  /** The entries with score `v`, in order. */
  function WithScore(h: History, v: int): History {
    if |h| == 0 then []
    else if h[0].score == v then [h[0]] + WithScore(h[1..], v)
    else WithScore(h[1..], v)
  }

  /** Puts `e` in front of the first entry whose score it reaches. */
  function Insert(e: Entry, h: History): (r: History)
    ensures multiset(r) == multiset(h) + multiset{e}
    decreases |h|
  {
    if |h| == 0 || e.score >= h[0].score then [e] + h
    else
      assert h == [h[0]] + h[1..];
      [h[0]] + Insert(e, h[1..])
  }

  lemma {:induction false} InsertNonIncreasing(e: Entry, h: History)
    requires NonIncreasing(h)
    ensures NonIncreasing(Insert(e, h))
    decreases |h|
  {
    if |h| > 0 && e.score < h[0].score {
      var t := Insert(e, h[1..]);
      InsertNonIncreasing(e, h[1..]);
      var r := [h[0]] + t;
      forall i, j | 0 <= i < j < |r|
        ensures r[i].score >= r[j].score
      {
        assert r[j] == t[j - 1];
        if i == 0 {
          InsertMembers(e, h[1..], j - 1);
        } else {
          assert r[i] == t[i - 1];
        }
      }
    }
  }

  /** Every entry of `Insert(e, h)` is `e` or an entry of `h`. */
  lemma {:induction false} InsertMembers(e: Entry, h: History, k: int)
    requires 0 <= k < |Insert(e, h)|
    ensures Insert(e, h)[k] == e || exists i :: 0 <= i < |h| && Insert(e, h)[k] == h[i]
    decreases |h|
  {
    if |h| > 0 && e.score < h[0].score && k > 0 {
      InsertMembers(e, h[1..], k - 1);
      var x := Insert(e, h)[k];
      if x != e {
        var i :| 0 <= i < |h[1..]| && x == h[1..][i];
        assert x == h[i + 1];
      }
    } else if |h| > 0 && e.score >= h[0].score && k > 0 {
      assert Insert(e, h)[k] == h[k - 1];
    }
  }

  lemma {:induction false} InsertWithScore(e: Entry, h: History, v: int)
    ensures WithScore(Insert(e, h), v) == if e.score == v then [e] + WithScore(h, v) else WithScore(h, v)
    decreases |h|
  {
    if |h| == 0 || e.score >= h[0].score {
      assert ([e] + h)[1..] == h;
    } else {
      InsertWithScore(e, h[1..], v);
      assert ([h[0]] + Insert(e, h[1..]))[1..] == Insert(e, h[1..]);
    }
  }

  /** `sort_dict`: the entries sorted by score, highest first, equal scores in
      their original order (Python's sort is stable, also in reverse). The
      result holds exactly the input's entries. */
  function SortDict(h: History): (r: History)
    ensures multiset(r) == multiset(h) && |r| == |h|
    ensures NonIncreasing(r)
    ensures forall v :: WithScore(r, v) == WithScore(h, v)
    decreases |h|
  {
    if |h| == 0 then []
    else
      assert h == [h[0]] + h[1..];
      var t := SortDict(h[1..]);
      InsertNonIncreasing(h[0], t);
      InsertWithScoreAll(h[0], t);
      Insert(h[0], t)
  }

  lemma InsertWithScoreAll(e: Entry, h: History)
    ensures forall v :: WithScore(Insert(e, h), v) == if e.score == v then [e] + WithScore(h, v) else WithScore(h, v)
  {
    forall v {
      InsertWithScore(e, h, v);
    }
  }

  /** Sorting a list that is already highest-first changes nothing. */
  lemma {:induction false} SortDictOfSorted(h: History)
    requires NonIncreasing(h)
    ensures SortDict(h) == h
    decreases |h|
  {
    if |h| > 0 {
      SortDictOfSorted(h[1..]);
      assert [h[0]] + h[1..] == h;
    }
  }

  predicate IsYes(line: string) {
    Upper(line) == "Y"
  }

  predicate IsNo(line: string) {
    Upper(line) == "N"
  }

  /** A line `yes_or_no` accepts. */
  predicate IsAnswer(line: string) {
    IsYes(line) || IsNo(line)
  }

  /** `yes_or_no`: the first line that upper-cases to "Y" or "N" decides;
      every line before it is re-prompted. */
  function YesOrNo(input: seq<string>): (r: Read<bool>)
    ensures r.Exhausted? <==> forall i :: 0 <= i < |input| ==> !IsYes(input[i]) && !IsNo(input[i])
    ensures r.Got? ==>
              var k := |input| - |r.rest| - 1;
              && 0 <= k < |input|
              && r.rest == input[k + 1..]
              && (IsYes(input[k]) || IsNo(input[k]))
              && (forall i :: 0 <= i < k ==> !IsYes(input[i]) && !IsNo(input[i]))
              && (r.value <==> IsYes(input[k]))
  {
    match ReadUntil(input, IsAnswer)
    case Exhausted => Exhausted
    case Got(line, rest) => Got(IsYes(line), rest)
  }

  /** `save_score`: the table to write to the score file, or `None` when the
      file was corrupted and the user declines to overwrite it. Only the
      corrupted case asks anything. */
  function SaveScore(scores: ScoreTable, corrupted: bool, input: seq<string>): (r: Read<Option<ScoreTable>>)
    ensures !corrupted ==> r == Got(Some(scores), input)
    ensures corrupted ==> (r.Exhausted? <==> YesOrNo(input).Exhausted?)
    ensures corrupted && r.Got? ==>
              && r.rest == YesOrNo(input).rest
              && (r.value.Some? <==> YesOrNo(input).value)
              && (r.value.Some? ==> r.value.value == scores)
  {
    if !corrupted then Got(Some(scores), input)
    else
      match YesOrNo(input)
      case Exhausted => Exhausted
      case Got(overwrite, rest) => if overwrite then Got(Some(scores), rest) else Got(None, rest)
  }

  /** One printed row of the score table. */
  datatype Row = Row(time: string, score: int)

  datatype ScoreView = NoScoresFor(name: string) | Table(rows: seq<Row>)

  /** `time_stamp[:-3]`: the timestamp without its last three characters
      (the seconds), empty when it is shorter than that. */
  function DropSeconds(ts: string): string {
    if |ts| >= 3 then ts[..|ts| - 3] else ""
  }

  function RowOf(e: Entry): Row {
    Row(DropSeconds(e.timestamp), e.score)
  }

  /** `print_scores`: nothing for an unknown user; otherwise one row per saved
      score, highest first, with the seconds cut off the timestamp. */
  function PrintScores(name: string, scores: ScoreTable): (v: ScoreView)
    requires WellKeyed(scores)
    ensures v.NoScoresFor? <==> name !in scores
    ensures v.Table? ==> |v.rows| == |scores[name]|
    ensures v.Table? ==> forall i, j :: 0 <= i < j < |v.rows| ==> v.rows[i].score >= v.rows[j].score
    ensures v.Table? ==> forall i :: 0 <= i < |v.rows| ==> exists e :: e in scores[name] && v.rows[i] == RowOf(e)
    ensures v.Table? ==> forall e :: e in scores[name] ==> RowOf(e) in v.rows
    ensures v.Table? ==> forall i :: 0 <= i < |v.rows| ==> v.rows[i] == RowOf(SortDict(scores[name])[i])
  {
    if name !in scores then NoScoresFor(name)
    else
      var sorted := SortDict(scores[name]);
      var rows := seq(|sorted|, i requires 0 <= i < |sorted| => RowOf(sorted[i]));
      RowsCoverEntries(scores[name], sorted, rows);
      Table(rows)
  }

  lemma RowsCoverEntries(h: History, sorted: History, rows: seq<Row>)
    requires multiset(sorted) == multiset(h)
    requires |rows| == |sorted| && forall i :: 0 <= i < |sorted| ==> rows[i] == RowOf(sorted[i])
    ensures forall i :: 0 <= i < |rows| ==> exists e :: e in h && rows[i] == RowOf(e)
    ensures forall e :: e in h ==> RowOf(e) in rows
  {
    forall i | 0 <= i < |rows|
      ensures exists e :: e in h && rows[i] == RowOf(e)
    {
      assert sorted[i] in multiset(h);
    }
    forall e | e in h
      ensures RowOf(e) in rows
    {
      assert e in multiset(sorted);
      var i :| 0 <= i < |sorted| && sorted[i] == e;
      assert rows[i] == RowOf(e);
    }
  }

  /** How the score file stood when it was read: loaded, or unreadable as a
      score table (the loader raised a value error). */
  datatype LoadedScores = Loaded(table: ScoreTable) | Corrupted

  /** What the end of a session did: the table written to the score file (if
      any), then the answer to the view question (the score view printed, if
      any), or `Exhausted` when the input ended at that question. The write
      happens before the view question is asked, so it stands either way. */
  datatype SessionEnd = SessionEnd(written: Option<ScoreTable>, shown: Read<Option<ScoreView>>)

  /** `save_and_view_scores`: merge this session's score into the loaded
      table (into an empty one when the file was corrupted), ask whether to
      save, then whether to view. The outer result covers the save questions
      and its `rest` is the input left for the view question. */
  function SaveAndViewScores(loaded: LoadedScores, name: string, ts: string, score: int, input: seq<string>)
    : (r: Read<SessionEnd>)
    requires loaded.Loaded? ==> WellKeyed(loaded.table)
    // The save questions are answered: the save question, and the overwrite
    // question when it is asked (a yes for a corrupted file).
    ensures r.Got? <==>
              && YesOrNo(input).Got?
              && (YesOrNo(input).value && loaded.Corrupted? ==> YesOrNo(YesOrNo(input).rest).Got?)
    // The table is written exactly when the user agrees to save and, for a
    // corrupted file, also agrees to overwrite it.
    ensures r.Got? ==>
              && r.rest == (if YesOrNo(input).value && loaded.Corrupted? then YesOrNo(YesOrNo(input).rest).rest else YesOrNo(input).rest)
              && (r.value.written.Some? <==>
                    YesOrNo(input).value && (loaded.Loaded? || YesOrNo(YesOrNo(input).rest).value))
    ensures r.Got? && r.value.written.Some? ==>
              r.value.written.value == Merge(if loaded.Loaded? then loaded.table else map[], name, ts, score)
    // The view question reads the lines left after the save questions; the
    // table is shown exactly when it is answered yes.
    ensures r.Got? ==>
              && (r.value.shown.Got? <==> YesOrNo(r.rest).Got?)
              && (r.value.shown.Got? ==>
                    && r.value.shown.rest == YesOrNo(r.rest).rest
                    && (r.value.shown.value.Some? <==> YesOrNo(r.rest).value))
    ensures r.Got? && r.value.shown.Got? && r.value.shown.value.Some? ==>
              && r.value.shown.value.value == PrintScores(name, Merge(if loaded.Loaded? then loaded.table else map[], name, ts, score))
              && r.value.shown.value.value.Table?
              && RowOf(Entry(ts, score)) in r.value.shown.value.value.rows
  {
    var scores := Merge(if loaded.Loaded? then loaded.table else map[], name, ts, score);
    LookupFound(scores[name], ts);
    match SaveQuestions(scores, loaded.Corrupted?, input)
    case Exhausted => Exhausted
    case Got(written, afterWrite) =>
      var shown :=
        match YesOrNo(afterWrite)
        case Exhausted => Exhausted
        case Got(view, rest) => Got(if view then Some(PrintScores(name, scores)) else None, rest);
      Got(SessionEnd(written, shown), afterWrite)
  }

  /** The saving half of `save_and_view_scores`: ask whether to save, and for
      a corrupted file whether to overwrite it. */
  function SaveQuestions(scores: ScoreTable, corrupted: bool, input: seq<string>): (r: Read<Option<ScoreTable>>)
    ensures r.Got? <==>
              && YesOrNo(input).Got?
              && (YesOrNo(input).value && corrupted ==> YesOrNo(YesOrNo(input).rest).Got?)
    ensures r.Got? ==>
              && r.rest == (if YesOrNo(input).value && corrupted then YesOrNo(YesOrNo(input).rest).rest else YesOrNo(input).rest)
              && (r.value.Some? <==> YesOrNo(input).value && (!corrupted || YesOrNo(YesOrNo(input).rest).value))
              && (r.value.Some? ==> r.value.value == scores)
  {
    match YesOrNo(input)
    case Exhausted => Exhausted
    case Got(save, afterSave) =>
      if save then SaveScore(scores, corrupted, afterSave) else Got(None, afterSave)
  }

  /** With an intact score file, answering yes to saving and yes to viewing
      writes the merged table and shows its printout. */
  lemma IntactFileSavedAndShown(table: ScoreTable, name: string, ts: string, score: int, save: string, view: string, rest: seq<string>)
    requires WellKeyed(table)
    requires IsYes(save) && IsYes(view)
    ensures var merged := Merge(table, name, ts, score);
            SaveAndViewScores(Loaded(table), name, ts, score, [save, view] + rest)
              == Got(SessionEnd(Some(merged), Got(Some(PrintScores(name, merged)), rest)), [view] + rest)
  {
    var input := [save, view] + rest;
    assert input[0] == save && input[1..] == [view] + rest;
    assert ([view] + rest)[0] == view && ([view] + rest)[1..] == rest;
    assert YesOrNo(input) == Got(true, [view] + rest);
    assert YesOrNo([view] + rest) == Got(true, rest);
  }

  /** A yes to saving writes an intact score file even when the input ends
      before the view question is answered. */
  lemma SavedBeforeInputEnds(table: ScoreTable, name: string, ts: string, score: int, save: string)
    requires WellKeyed(table)
    requires IsYes(save)
    ensures SaveAndViewScores(Loaded(table), name, ts, score, [save])
              == Got(SessionEnd(Some(Merge(table, name, ts, score)), Exhausted), [])
  {
    assert [save][1..] == [];
    assert YesOrNo([save]) == Got(true, []);
  }

  /** When the score file was corrupted and the user asks to save but then
      declines to overwrite it, nothing is written, whatever follows. */
  lemma DeclineOverwriteWritesNothing(name: string, ts: string, score: int, yes: string, no: string, rest: seq<string>)
    requires IsYes(yes) && IsNo(no)
    ensures var r := SaveAndViewScores(Corrupted, name, ts, score, [yes, no] + rest);
            r.Got? && r.value.written.None? && r.rest == rest
  {
    var input := [yes, no] + rest;
    assert input[0] == yes && input[1..] == [no] + rest;
    assert ([no] + rest)[0] == no && ([no] + rest)[1..] == rest;
    assert YesOrNo(input) == Got(true, [no] + rest);
    assert YesOrNo([no] + rest) == Got(false, rest);
  }
}

=== FILE: text.dfy ===
/**
 The string built-ins the quiz relies on: `int(...)`, `str.lower`,
 `str.upper`, `str.split(sep)` and its inverse `sep.join(...)`. Characters are
 treated as ASCII: only A-Z/a-z change case and only 0-9 are digits.
 */
module Text {
  import opened Console

  predicate IsDigit(c: char) {
    '0' <= c <= '9'
  }

  /** A non-empty run of decimal digits. */
  predicate IsDigits(s: string) {
    |s| > 0 && forall i :: 0 <= i < |s| ==> IsDigit(s[i])
  }

  /** The value of a string of decimal digits, most significant digit first. */
  function DigitsValue(s: string): nat
    requires forall i :: 0 <= i < |s| ==> IsDigit(s[i])
  {
    if |s| == 0 then 0
    else
      assert IsDigit(s[|s| - 1]);
      10 * DigitsValue(s[..|s| - 1]) + (s[|s| - 1] as int - '0' as int)
  }

  /** The strings `int(s)` accepts, simplified: an optional sign followed by
      at least one ASCII digit. */
  predicate IsIntLiteral(s: string) {
    || IsDigits(s)
    || (|s| >= 2 && (s[0] == '+' || s[0] == '-') && IsDigits(s[1..]))
  }

  function ParseInt(s: string): (r: Option<int>)
    ensures r.Some? <==> IsIntLiteral(s)
  {
    if IsDigits(s) then Some(DigitsValue(s))
    else if IsIntLiteral(s) then
      if s[0] == '-' then Some(0 - DigitsValue(s[1..]) as int) else Some(DigitsValue(s[1..]))
    else None
  }

  /** The decimal rendering of a natural number (`str(n)`). */
  function NatToString(n: nat): (s: string)
    ensures IsDigits(s)
  {
    if n < 10 then [('0' as int + n) as char]
    else NatToString(n / 10) + [('0' as int + n % 10) as char]
  }

  /** Reading back a rendered number gives the number. */
  lemma {:induction false} ParseNatToString(n: nat)
    ensures ParseInt(NatToString(n)) == Some(n)
  {
    DigitsOfNatToString(n);
  }

  lemma {:induction false} DigitsOfNatToString(n: nat)
    ensures DigitsValue(NatToString(n)) == n
    decreases n
  {
    if n >= 10 {
      var s := NatToString(n);
      assert s[..|s| - 1] == NatToString(n / 10);
      DigitsOfNatToString(n / 10);
    }
  }

  function LowerChar(c: char): char {
    if 'A' <= c <= 'Z' then (c as int - 'A' as int + 'a' as int) as char else c
  }

  function UpperChar(c: char): char {
    if 'a' <= c <= 'z' then (c as int - 'a' as int + 'A' as int) as char else c
  }

  /** `s.lower()` */
  function Lower(s: string): string {
    seq(|s|, i requires 0 <= i < |s| => LowerChar(s[i]))
  }

  /** `s.upper()` */
  function Upper(s: string): string {
    seq(|s|, i requires 0 <= i < |s| => UpperChar(s[i]))
  }

  /** Upper-casing first loses nothing that lower-casing keeps: two strings
      that agree in upper case agree in lower case. */
  lemma LowerOfUpper(s: string)
    ensures Lower(Upper(s)) == Lower(s)
  {
    assert forall i :: 0 <= i < |s| ==> Lower(Upper(s))[i] == Lower(s)[i];
  }

  /** `s.split(sep)`: the pieces between occurrences of `sep`, empty pieces
      included, so a string with n separators has n + 1 pieces. */
  function Split(s: string, sep: char): (parts: seq<string>)
    ensures |parts| >= 1
    ensures forall i :: 0 <= i < |parts| ==> sep !in parts[i]
    decreases |s|
  {
    if |s| == 0 then [""]
    else
      var tail := Split(s[1..], sep);
      if s[0] == sep then [""] + tail
      else [[s[0]] + tail[0]] + tail[1..]
  }

  /** `sep.join(parts)` */
  function Join(parts: seq<string>, sep: char): string
    requires |parts| >= 1
  {
    if |parts| == 1 then parts[0] else parts[0] + [sep] + Join(parts[1..], sep)
  }

  lemma JoinThree(a: string, b: string, c: string, sep: char)
    ensures Join([a, b, c], sep) == a + [sep] + b + [sep] + c
  {
    assert [a, b, c][1..] == [b, c];
    assert [b, c][1..] == [c];
    assert Join([c], sep) == c;
    assert Join([b, c], sep) == b + [sep] + c;
    assert Join([a, b, c], sep) == a + [sep] + (b + [sep] + c);
  }

  /** Joining the pieces of a split gives back the original string. */
  lemma {:induction false} JoinSplit(s: string, sep: char)
    ensures Join(Split(s, sep), sep) == s
    decreases |s|
  {
    if |s| > 0 {
      var tail := Split(s[1..], sep);
      JoinSplit(s[1..], sep);
      if s[0] == sep {
        var parts := Split(s, sep);
        assert parts[0] == "" && parts[1..] == tail;
        assert Join(parts, sep) == [sep] + Join(tail, sep);
      } else {
        JoinPrependChar(s[0], tail, sep);
      }
      assert [s[0]] + s[1..] == s;
    }
  }

  /** Putting a character in front of the first piece puts it in front of
      the join. */
  lemma JoinPrependChar(c: char, parts: seq<string>, sep: char)
    requires |parts| >= 1
    ensures Join([[c] + parts[0]] + parts[1..], sep) == [c] + Join(parts, sep)
  {
    var p := [[c] + parts[0]] + parts[1..];
    assert p[0] == [c] + parts[0] && p[1..] == parts[1..];
    if |parts| > 1 {
      assert [c] + parts[0] + [sep] + Join(parts[1..], sep) == [c] + (parts[0] + [sep] + Join(parts[1..], sep));
    }
  }

  /** Splitting the join of separator-free pieces gives back the pieces. */
  lemma {:induction false} SplitJoin(parts: seq<string>, sep: char)
    requires |parts| >= 1
    requires forall i :: 0 <= i < |parts| ==> sep !in parts[i]
    ensures Split(Join(parts, sep), sep) == parts
    decreases |parts|
  {
    if |parts| == 1 {
      SplitWithoutSeparator(parts[0], sep);
    } else {
      SplitJoin(parts[1..], sep);
      SplitAtFirstSeparator(parts[0], Join(parts[1..], sep), sep);
    }
  }

  lemma {:induction false} SplitWithoutSeparator(s: string, sep: char)
    requires sep !in s
    ensures Split(s, sep) == [s]
    decreases |s|
  {
    if |s| > 0 {
      SplitWithoutSeparator(s[1..], sep);
      assert [s[0]] + s[1..] == s;
    }
  }

  lemma {:induction false} SplitAtFirstSeparator(a: string, b: string, sep: char)
    requires sep !in a
    ensures Split(a + [sep] + b, sep) == [a] + Split(b, sep)
    decreases |a|
  {
    var s := a + [sep] + b;
    if |a| == 0 {
      assert s[1..] == b;
    } else {
      assert s[1..] == a[1..] + [sep] + b;
      SplitAtFirstSeparator(a[1..], b, sep);
      assert [a[0]] + a[1..] == a;
    }
  }

  /** A character that is in none of the pieces and is not the separator is
      not in their join. */
  lemma {:induction false} NotInJoin(parts: seq<string>, sep: char, c: char)
    requires |parts| >= 1
    requires c != sep
    requires forall i :: 0 <= i < |parts| ==> c !in parts[i]
    ensures c !in Join(parts, sep)
    decreases |parts|
  {
    if |parts| > 1 {
      NotInJoin(parts[1..], sep, c);
    }
  }

  /** Integer literals are made of digits and signs only. */
  lemma IntLiteralChars(s: string, c: char)
    requires IsIntLiteral(s)
    requires !IsDigit(c) && c != '+' && c != '-'
    ensures c !in s
  {
    forall i | 0 <= i < |s|
      ensures s[i] != c
    {
      if !IsDigits(s) && i > 0 {
        assert s[i] == s[1..][i - 1];
      }
    }
  }
}
